=== FILE: README.md ===
# obsmaker: text formats, output names and calibration selection in Dafny

This project models the discrete core of `obsmaker`, the FIFI-LS observation
maker. The model covers:

- the `.sct` scan-template format, with its two writers (the AOR translator `writeFAOR` and the template export `writeSct`) and its reader `readSct`;
- the filename sanitiser `replaceBadChar`;
- the loop that picks a `.sct` path not yet taken, and the `_map.txt` name that goes with it;
- the map-list file: what `writeFAOR` writes, and what `readMap` accepts;
- the settings `writeFAOR` derives from an AOR: grating order and blue filter, detector and chop angles, the chop-type mapping, grating-position and chop-cycle counts;
- the selection logic of `obsmaker/grating.py`: calibration channel, calibration epoch and row, the module-to-slit-position map, and the shape of the forward wavelength cube and of the inverse sampling grid.

Everything is pure:

- A file is its text content, and the filesystem is the set of paths that already exist.
- The calibration table is a sequence of rows.
- The observation date is an integer input.
- The wavelength formula is a function parameter.
- Python floats are Dafny `real`s; the infinities and NaN a numpy division by zero gives are the `Derivations.Float` datatype.
- An exception the modelled code raises on its modelled inputs is an `Err`, `None` or `Unbound` outcome, never a precondition. The conversions of AOR text to numbers come before the model's inputs (see "Left out").

Modules:

- `Results` (`results.dfy`): `Option`, `Result`, `Max` and `Min`.
- `PyText` (`pytext.dfy`): the Python string methods the source uses.
  - `strip`, `lstrip` and `rstrip('\n')`.
  - `replace`, with a character or with `''`.
  - `split('#')` and `'#'.join`.
  - `ljust`, `rjust` and `upper`.
  - `str.isspace` character by character.
- `Seqs` (`seqs.dfy`): facts about slicing and concatenating sequences of any element type.
- `PyLines` (`pylines.dfy`): iterating an open file line by line, and `str.split()`.
- `Decimal` (`decimal.dfy`): `'%03d'` and reading digits back.
- `FileNames` (`names.dfy`): `replaceBadChar`, the stem, `os.path.join`, the name-choosing loop and `MAPLISTPATH`.
- `ScanTemplate` (`scantemplate.dfy`): the `.sct` line writers, the reader, and the file-level round-trips.
- `MapFile` (`mapfile.dfy`): the map-list file writer and `readMap`.
- `Derivations` (`derivations.dfy`): the `writeFAOR` settings.
- `Grating` (`grating.dfy`): `inductosyn2wavelength` and `wavelength2inductosyn`, apart from their floating-point formula.

`readSct` is modelled as "parse every line, then store the entries one after
the other". This gives the same dictionary, and the same failure, as the
source's single loop.

Facts of the code that shape the model:

- The calibration epoch is the latest table date strictly before the observation date (obsmaker/grating.py:61-63).
- A template line is `value#KEY`. The translator pads the value to `max(25, len(value) + 2)` characters (obsmaker/io.py:380-381); the template export pads it to at least 25 (obsmaker/io.py:444).
- The inductosyn scale factor is 1 and the angle offset gamma is a constant per array, both fixed in the code (obsmaker/grating.py:43-47).
- `readMap` raises `UnboundLocalError` on an empty file (the loop variable is never bound), rejects a one-line file, and otherwise checks only that the header line has six fields; the count of map points is the number of lines after the header (obsmaker/io.py:465-481).
- The pixel scale is a numpy float (obsmaker/io.py:297-301). Dividing by it when it is zero gives an infinity or NaN with a warning, not an exception (obsmaker/io.py:310-319); the translation raises later, in `math.ceil`, unless the dividend was negative.

## Model

| member | source | states |
|---|---|---|
| `FileNames.ReplaceBadChar` | obsmaker/io.py:8-20 | same length; each of `/`, `\`, `:`, `*` and blank becomes `_`; every other character is kept, the vertical bar, `<` and `>` included; no bad character is left |
| `FileNames.ReplaceBadCharIdempotent` | obsmaker/io.py:12-20 | sanitising an already sanitised name changes nothing |
| `FileNames.TargetName` | obsmaker/io.py:159 | `TARGET_NAME` has the AOR name's length; each blank becomes `_`, all else is kept, and no blank is left |
| `FileNames.JoinLayout` | obsmaker/io.py:362-369 | an absolute name replaces the directory; otherwise the path is the directory, one `/` unless it is empty or ends in `/`, then the name |
| `FileNames.Stem` | obsmaker/io.py:159-162 | the OBSID stem (target name with blanks as `_` and no `@`, `_`, sanitised title) is never empty |
| `FileNames.JoinInjective` | obsmaker/io.py:362-369 | `os.path.join` onto one directory tells apart names with the same first character |
| `FileNames.SuffixInjective` | obsmaker/io.py:368-375 | the suffix (none for 0, `_%03d` after that) determines the index |
| `FileNames.SctNameInjective` | obsmaker/io.py:362-369 | different indices give different `.sct` names |
| `FileNames.CandidateFresh` | obsmaker/io.py:365-369 | each path the loop tries differs from all earlier ones |
| `FileNames.ChooseSctPath` | obsmaker/io.py:362-369 | the chosen path does not exist; every earlier candidate exists, so the index is the least free one; the index is at most the number of existing paths, so the loop ends |
| `FileNames.ChooseOutputNames` | obsmaker/io.py:362-375 | `MAPLISTPATH` carries the same suffix as the chosen `.sct` path, ends in `_map.txt`, and with `_map.txt` replaced by `.sct` joins to that path |
| `FileNames.MapListNameAt` | obsmaker/io.py:370-375 | a map-list name never starts with `@`, and holds an `@` exactly when the sanitised title does |
| `FileNames.WrittenMapFile` | obsmaker/io.py:385-386 | the path the map file is written to ends with `MAPLISTPATH` with every `@` dropped (`PyText.Remove` keeps every other character) |
| `FileNames.WrittenMapFileMatchesIff` | obsmaker/io.py:385-386 | the map file is written where `MAPLISTPATH` points if and only if the title has no `@` |
| `ScanTemplate.FaorLine` | obsmaker/io.py:380-381 | line layout: the value, blanks to a field of exactly max(25, len(value) + 2) characters, `#`, the key, newline |
| `ScanTemplate.SctLine` | obsmaker/io.py:444 | line layout: the value, blanks to `max(25, len(value))`, `#`, the upper-cased key, newline |
| `ScanTemplate.ParseLine` | obsmaker/io.py:419-421 | a line parses exactly when it holds one `#`; the value is the stripped text before the `#` and the key the stripped text after it, once the trailing newline is dropped |
| `ScanTemplate.ParseAll` | obsmaker/io.py:418-421 | parsing fails exactly when some line fails; otherwise it gives one entry per line, in order |
| `ScanTemplate.ToMapKeys` | obsmaker/io.py:416-421 | the dictionary holds exactly the keys of the entries read |
| `ScanTemplate.ToMapLastWins` | obsmaker/io.py:421 | a key holds the value of its last entry |
| `ScanTemplate.ReadSct` | obsmaker/io.py:410-425 | `None` if and only if some line of the file does not split into two parts on `#`; every stored key and value is stripped; the stored keys are exactly the keys of the file's lines |
| `ScanTemplate.ReadSctLastWins` | obsmaker/io.py:418-422 | in a template read back, a key holds the value of the last line carrying it |
| `ScanTemplate.FaorLineRoundTrip` | obsmaker/io.py:380-381 | a translator line parses back to its key and value |
| `ScanTemplate.SctLineRoundTrip` | obsmaker/io.py:444 | an exported line parses back to its value under the upper-cased key |
| `ScanTemplate.FaorFileRoundTrip` | obsmaker/io.py:378-382 | reading a `.sct` file the translator wrote gives the dictionary of its entries, later duplicates winning |
| `ScanTemplate.SctFileRoundTrip` | obsmaker/io.py:442-444 | reading an exported template gives the dictionary of its entries with upper-cased keys |
| `ScanTemplate.WithSctExtension` | obsmaker/io.py:439-440 | the name ends in `.sct`; it is unchanged exactly when it already did, and otherwise has `.sct` appended |
| `ScanTemplate.WithSctExtensionIdempotent` | obsmaker/io.py:439-440 | applying the extension rule twice equals applying it once |
| `MapFile.ReadMap` | obsmaker/io.py:465-481 | an empty file raises; a file is accepted exactly when it has at least two lines and six fields on the first; the point count is the line count minus one |
| `MapFile.HeaderLine` | obsmaker/io.py:387-388 | the header is two fields of at least 12 characters and a newline; a coordinate shorter than 12 ends its 12-character column, after blanks |
| `MapFile.OffsetLine` | obsmaker/io.py:391-395 | an offset line is a field of at least 12 characters, then one of at least 14, then a newline; each number ends its field, all the padding before a number is blanks, and at least two blanks separate the two |
| `MapFile.MapLines` | obsmaker/io.py:384-395 | the header line, then one offset line per offset, in order |
| `MapFile.HeaderWords` | obsmaker/io.py:173-177 | the header written from the two sexagesimal coordinates splits into their six fields |
| `MapFile.WrittenMapReadsBack` | obsmaker/io.py:384-395 | a map file the translator writes is accepted by `readMap`, with one map point per offset |
| `Derivations.Order` | obsmaker/io.py:294-302 | `ORDER` (copied to `BLUE_FILTER`) is `2` if and only if the blue wavelength is below 71, and `1` if and only if it is not |
| `Derivations.Mod360` | obsmaker/io.py:179 | a float `% 360` lies in [0, 360) and differs from its argument by whole turns |
| `Derivations.Mod360Unique` | obsmaker/io.py:179 | it is the only such value |
| `Derivations.DetAngle` | obsmaker/io.py:179 | `DETANGLE` lies in [-180, 180) and is congruent to the map rotation angle |
| `Derivations.DetAngleUnique` | obsmaker/io.py:179 | it is the only angle in [-180, 180) congruent to the rotation |
| `Derivations.ChopPosAng` | obsmaker/io.py:210-217 | `CHOP_POSANG` lies in [0, 360); it is 0 in the horizon frame, and otherwise congruent to the chop angle plus 270 |
| `Derivations.ChopPosAngUnique` | obsmaker/io.py:210 | outside the horizon frame it is the only such angle |
| `Derivations.ChopMapping` | obsmaker/io.py:219-246 | tracking, observing mode, off position and its coordinates for symmetric and asymmetric chopping, by reference type and map reference; the warning appears exactly for an absolute reference with map reference `true`; other chop types set nothing |
| `Derivations.TrackingOnIffSymmetric` | obsmaker/io.py:219-229 | tracking is on, and the off position matched, if and only if chopping is symmetric |
| `Derivations.PrimaryArray` | obsmaker/io.py:248-251 | `BLUE` exactly for `Blue`, `RED` exactly for `Red`, unset otherwise |
| `Derivations.PrimaryArrayIsUpper` | obsmaker/io.py:248-251 | when the primary array is set, it is the AOR's value upper-cased |
| `Derivations.Dichroic` | obsmaker/io.py:253 | `DICHROIC` is the first three characters of the AOR's dichroic |
| `Derivations.NumpyDiv` | obsmaker/io.py:310-319 | dividing by a numpy zero gives the infinity of the dividend's sign, or NaN for 0/0, and never raises; otherwise the quotient times the divisor is the dividend |
| `Derivations.ClampFloat` | obsmaker/io.py:311-319 | `max([x, 6.])` is at least 6 when finite; -inf becomes 6, while +inf and NaN stay |
| `Derivations.BandwidthPixels` | obsmaker/io.py:310-319 | only a zero speed of light raises, outside a spectral scan; a non-zero pixel scale gives the clamped quotient; the result is never -inf, and is at least 6 when finite |
| `Derivations.ZeroPixelScale` | obsmaker/io.py:310-327 | with a zero pixel scale the bandwidth step does not raise; a negative dividend gives 6 pixels, and any other dividend makes the grating-position count raise |
| `Derivations.PosUp` | obsmaker/io.py:321-327 | raises exactly for a zero cycle count, a zero step size, or a bandwidth that is an infinity or NaN; the count is a multiple of the number of nod cycles |
| `Derivations.PosUpCovers` | obsmaker/io.py:321-327 | for positive cycles, step size and bandwidth, the count is at least the cycle count; its steps cover the bandwidth, and one cycle's worth fewer would not |
| `Derivations.ChopCycles` | obsmaker/io.py:336-357 | zero grating positions raises; for positive positions the chop cycles per position are the least count that covers twice the time per point times the nod cycles |
| `Grating.Channel` | obsmaker/grating.py:21-30 | `R105` if and only if red with dichroic `105`; `R130` if and only if red with another dichroic; `B1` and `B2` for the other arrays by order `1` or not |
| `Grating.ChannelNameInjective` | obsmaker/grating.py:66 | the `ch` names of distinct channels differ |
| `Grating.BlueChannelFollowsOrder` | obsmaker/grating.py:26-30 | for the blue array the channel is `B1` if and only if the translator's blue wavelength is at least 71 |
| `Grating.Gamma` | obsmaker/grating.py:44-47 | the angle offset is 0.0167200 exactly for the red array, 0.0089008 otherwise |
| `Grating.GammaFollowsChannel` | obsmaker/grating.py:21-47 | the red angle offset is used exactly when the array's channel is R105 or R130 |
| `Grating.LatestBefore` | obsmaker/grating.py:53-63 | no epoch if and only if no table date is before the observation; otherwise a table date before it, and no earlier than any other such date |
| `Grating.LatestBeforeMonotone` | obsmaker/grating.py:61-63 | a later observation never gets an earlier epoch |
| `Grating.LatestBeforeStable` | obsmaker/grating.py:61-63 | observation dates between the epoch and the next table date share the epoch |
| `Grating.FirstRowFor` | obsmaker/grating.py:66-67 | the first row of the epoch and channel, or none exactly when no row matches |
| `Grating.SelectCalibration` | obsmaker/grating.py:53-75 | fails exactly when there is no epoch or the epoch has no row for the channel; otherwise a row of the table, of the channel, dated before the observation and no earlier than any other row so dated, and the first row of the table with that date and channel |
| `Grating.SelectCalibrationNoFallback` | obsmaker/grating.py:61-69 | a row of the channel before the observation guarantees an epoch; the selection fails if and only if no row of the channel has that epoch |
| `Grating.SlitPosition` | obsmaker/grating.py:91 | the slit position of a module lies in 1..29 and is never a multiple of 6 |
| `Grating.ModuleAtSlitPosition` | obsmaker/grating.py:91 | the inverse map recovers the module from its slit position |
| `Grating.SlitPositionAtModule` | obsmaker/grating.py:91 | every position in 1..29 that is not a multiple of 6 is some module's slit position |
| `Grating.SlitPositionInjective` | obsmaker/grating.py:87-91 | no two modules share a slit position |
| `Grating.AsList` | obsmaker/grating.py:78-82 | a scalar grating position is taken as a list of one |
| `Grating.Forward` | obsmaker/grating.py:77-97 | the cube has one slice per grating position, 25 modules and 16 pixels; each element is the formula at the offset-corrected position, the module's slit position and the pixel number from 1 |
| `Grating.ForwardScalar` | obsmaker/grating.py:78-84 | a scalar position gives the same cube as the one-element list, of one slice |
| `Grating.InverseGrid` | obsmaker/grating.py:107 | 300 positions from 0 to 2 990 000, each 10 000 above the previous |
| `Grating.InverseGridIncreasing` | obsmaker/grating.py:107 | the sampled positions increase strictly |
| `Grating.InverseSamplesShape` | obsmaker/grating.py:107-108 | the inverse conversion evaluates a 300 × 25 × 16 cube |
| `PyLines.SplitLinesConcat` | obsmaker/io.py:417-418 | reading back text written as newline-terminated lines yields exactly those lines |
| `PyLines.ConcatSplitLines` | obsmaker/io.py:418 | the lines a file is iterated into concatenate back to the whole text |
| `PyText.SplitOnJoin` | obsmaker/io.py:420 | `split('#')` undoes a join of parts without `#` |
| `PyText.JoinOnSplit` | obsmaker/io.py:420 | the parts `split('#')` returns, joined with `#`, give the line back |
| `Decimal.Pad3RoundTrip` | obsmaker/io.py:369 | reading the `'%03d'` text of an index gives the index back |

## Left out

- The Qt dialogs (obsmaker/dialog.py, obsmaker/mainwindow.py, and the `QFileDialog` parts of `writeSct` and `readMap`) are user interface. `readMap` with no file name is therefore not modelled.
- `writeFAOR` converts AOR text to numbers with `float(...)` and `int(...)` (obsmaker/io.py:179, obsmaker/io.py:209-210, obsmaker/io.py:257, obsmaker/io.py:261, obsmaker/io.py:304, obsmaker/io.py:311-319, obsmaker/io.py:353). `readAOR` stores `['']` for a missing tag (obsmaker/io.py:81), so `float('')` raises `ValueError`, as does `int('2.0')` for the repeat count. The derivations take the converted `real` and `int` values, so this `ValueError` path is not modelled.
- `readAOR`, the keyword configuration, `radec` and `velocity2z` are XML, JSON and float conversions. The rotation of the map offsets is numpy linear algebra. The model takes their results as inputs: the sexagesimal fields and the rendered offsets.
- Opening files is left out: a missing file, which `readSct` also reports as `None`, and Python's universal-newline translation of `\r`. A file is its text, split after each `\n`.
- pandas loading of the calibration table and the clock default for the observation date are left out. `int(order)` and `int(obsdate)` parsing is left out too: the table is a sequence of rows and the date an integer.
- The wavelength formula (trigonometry, `arctan2`), `np.mean`, and the `np.interp` inversion are left out. They are floating-point numerics; the formula is the parameter `f` of `Grating.Forward`.
- IEEE rounding, `round(x, 4)`, and `str()` of floats are left out. Reals are exact, and rendered numbers are inputs.
- The `FILEGP_B` and `FILEGP_R` group names, and the many constant defaults of `writeFAOR`, are left out: they are copies of configuration values.
- Which keywords are written, and in what order, comes from the keyword configuration. The model writes any sequence of entries.
- The redshift branch for unit `z` is never taken: a list is compared with a string, so offsets are always km/s. The `'HORZION'` warning compares a misspelt frame name. The model keeps neither branch.
- The map-file branch that writes a single offset without a newline is never taken, since every row of rotated offsets holds two numbers. `MapFile.MapLines` writes every offset line with its newline.
- `ScanTemplate.SctLine`: `upper()` is modelled for ASCII letters only. Python also upper-cases other letters, some into several characters.
- `ScanTemplate.SctLine`: the export raises when a value is not a string. The model's values are strings.
- `Derivations.NumpyDiv`: IEEE signed zero is not modelled. A divisor of -0.0 flips the sign of the infinity; reals have a single zero.
- `Derivations.PosUp`: the different exceptions (`ZeroDivisionError`, `OverflowError` and `ValueError` from `math.ceil`) are one `Err`.
- `Grating.Channel`: the dichroic and the order are taken as the strings the translator produces (obsmaker/io.py:253, obsmaker/io.py:295-299). Called with integers, as the docstring's usage example does, the source compares them with `'105'` and `'1'` and so selects `R130` or `B2`. That case is not modelled.
- `Derivations.PosUp`: a negative nod-cycle count is not given meaning beyond divisibility. `int()` of the ceiling product is the identity on the reals modelled.
- `Derivations.ChopCycles`: for a negative grating-position count only the error case is stated.
- `setup.py` is packaging. The `writeFAOR` argument-count mismatch in the main window belongs to the user-interface wiring.

=== FILE: decimal.dfy ===
/** Decimal rendering of natural numbers as Python's `'%03d' % n` produces
    it, together with the digit-string reading that inverts it. */
module Decimal {

  predicate IsDigit(c: char) {
    '0' <= c <= '9'
  }

  predicate AllDigits(s: string) {
    forall i :: 0 <= i < |s| ==> IsDigit(s[i])
  }

  function DigitChar(d: nat): (c: char)
    requires d < 10
    ensures IsDigit(c) && c as int - '0' as int == d
  {
    ('0' as int + d) as char
  }

  /** `str(n)` for a natural number. */
  function Digits(n: nat): (s: string)
    ensures |s| >= 1 && AllDigits(s)
    decreases n
  {
    if n < 10 then [DigitChar(n)] else Digits(n / 10) + [DigitChar(n % 10)]
  }

  function Zeros(k: nat): (s: string)
    ensures |s| == k && AllDigits(s)
    ensures forall i :: 0 <= i < k ==> s[i] == '0'
  {
    seq(k, _ => '0')
  }

  /** `'%03d' % n`: at least three digits, padded with leading zeros. */
  function Pad3(n: nat): (s: string)
    ensures |s| >= 3 && AllDigits(s)
  {
    var d := Digits(n);
    if |d| < 3 then Zeros(3 - |d|) + d else d
  }

  /** The number a string of decimal digits denotes (`int(s)`). */
  function Value(s: string): nat
    requires AllDigits(s)
    decreases |s|
  {
    if s == [] then 0 else 10 * Value(s[..|s| - 1]) + (s[|s| - 1] as int - '0' as int)
  }

  lemma {:induction false} ValueDigits(n: nat)
    ensures Value(Digits(n)) == n
    decreases n
  {
    if n >= 10 {
      var s := Digits(n);
      assert s[..|s| - 1] == Digits(n / 10);
      ValueDigits(n / 10);
    }
  }

  lemma {:induction false} ValueZeros(k: nat, s: string)
    requires AllDigits(s)
    ensures Value(Zeros(k) + s) == Value(s)
    decreases |s|, k
  {
    var z := Zeros(k) + s;
    if s == [] {
      if k > 0 {
        assert z[..|z| - 1] == Zeros(k - 1) + [];
        ValueZeros(k - 1, []);
      }
    } else {
      assert z[..|z| - 1] == Zeros(k) + s[..|s| - 1];
      ValueZeros(k, s[..|s| - 1]);
    }
  }

  /** Reading the zero-padded form back gives the number. */
  lemma Pad3RoundTrip(n: nat)
    ensures Value(Pad3(n)) == n
  {
    var d := Digits(n);
    ValueDigits(n);
    if |d| < 3 {
      ValueZeros(3 - |d|, d);
    }
  }

  lemma Pad3Injective(m: nat, n: nat)
    ensures Pad3(m) == Pad3(n) ==> m == n
  {
    Pad3RoundTrip(m);
    Pad3RoundTrip(n);
  }
}

=== FILE: derivations.dfy ===
/** The discrete settings the AOR translator derives from an AOR before it
    writes the scan template: the grating order and blue filter, the detector
    and chop angles, the chop-type dependent tracking and off-position
    settings, and the grating-position and chop-cycle counts. Python floats
    are modelled as reals, without rounding. */
module Derivations {
  import opened Results
  import opened PyText

  // ---------------------------------------------------------------- order

  /** `ORDER`: second order below 71 micron, first order from there on. */
  function Order(blueLam: real): (o: string)
    ensures o == "2" <==> blueLam < 71.0
    ensures o == "1" <==> blueLam >= 71.0
  {
    if blueLam < 71.0 then "2" else "1"
  }

  // ---------------------------------------------------------------- angles

  /** `a` and `b` differ by a whole number of turns. */
  predicate Congruent(a: real, b: real) {
    ((a - b) / 360.0).Floor as real == (a - b) / 360.0
  }

  lemma CongruentByTurns(a: real, b: real, k: int)
    requires a - b == 360.0 * k as real
    ensures Congruent(a, b)
  {
    assert (a - b) / 360.0 == k as real;
  }

  lemma TurnsOfCongruent(a: real, b: real) returns (k: int)
    requires Congruent(a, b)
    ensures a - b == 360.0 * k as real
  {
    k := ((a - b) / 360.0).Floor;
  }

  /** Shifting both sides by `s` and dropping a full turn keeps congruence. */
  lemma CongruentShift(a: real, b: real, s: real)
    requires Congruent(a, b + s + 360.0)
    ensures Congruent(a - s, b)
  {
    var k := TurnsOfCongruent(a, b + s + 360.0);
    CongruentByTurns(a - s, b, k + 1);
  }

  /** Python's `x % 360` on a float: floored, so the result is never negative. */
  function Mod360(x: real): (r: real)
    ensures 0.0 <= r < 360.0
    ensures Congruent(r, x)
  {
    var k := (x / 360.0).Floor;
    var r := x - 360.0 * k as real;
    CongruentByTurns(r, x, -k);
    r
  }

  /** There is one angle in [0, 360) for each class of congruent angles, so
      `Mod360` is the only normalisation into that range. */
  lemma Mod360Unique(x: real, r: real)
    requires 0.0 <= r < 360.0 && Congruent(r, x)
    ensures r == Mod360(x)
  {
    var m := Mod360(x);
    var k1 := TurnsOfCongruent(r, x);
    var k2 := TurnsOfCongruent(m, x);
    assert r - m == 360.0 * (k1 - k2) as real;
  }

  /** `DETANGLE`: the map rotation angle brought into [-180, 180). */
  function DetAngle(rotation: real): (d: real)
    ensures -180.0 <= d < 180.0
    ensures Congruent(d, rotation)
  {
    var m := Mod360(rotation + 180.0 + 360.0);
    CongruentShift(m, rotation, 180.0);
    m - 180.0
  }

  /** `DetAngle` is the only angle in [-180, 180) congruent to the rotation. */
  lemma DetAngleUnique(rotation: real, d: real)
    requires -180.0 <= d < 180.0 && Congruent(d, rotation)
    ensures d == DetAngle(rotation)
  {
    var k := TurnsOfCongruent(d, rotation);
    CongruentByTurns(d + 180.0, rotation + 180.0 + 360.0, k - 1);
    Mod360Unique(rotation + 180.0 + 360.0, d + 180.0);
  }

  /** `CHOP_POSANG`: the AOR chop angle (counter-clockwise from north) turned
      by 270 degrees and brought into [0, 360); zero when chopping in the
      horizon frame. */
  function ChopPosAng(chopAngle: real, chopCoord: string): (p: real)
    ensures 0.0 <= p < 360.0
    ensures chopCoord == "HORIZON" ==> p == 0.0
    ensures chopCoord != "HORIZON" ==> Congruent(p, chopAngle + 270.0)
  {
    if chopCoord == "HORIZON" then 0.0
    else
      var m := Mod360(chopAngle + 270.0 + 360.0);
      CongruentShift(m, chopAngle + 270.0, 0.0);
      m
  }

  /** Outside the horizon frame the chop position angle is the only angle in
      [0, 360) congruent to the turned chop angle. */
  lemma ChopPosAngUnique(chopAngle: real, chopCoord: string, p: real)
    requires chopCoord != "HORIZON"
    requires 0.0 <= p < 360.0 && Congruent(p, chopAngle + 270.0)
    ensures p == ChopPosAng(chopAngle, chopCoord)
  {
    var q := ChopPosAng(chopAngle, chopCoord);
    var k1 := TurnsOfCongruent(p, chopAngle + 270.0);
    var k2 := TurnsOfCongruent(q, chopAngle + 270.0);
    assert p - q == 360.0 * (k1 - k2) as real;
  }

  // ---------------------------------------------------------------- chop type

  /** The tracking and off-position keywords. A keyword the AOR's chop and
      reference types do not set keeps its initial `None`. */
  datatype ChopSettings = ChopSettings(
    tracking: Option<string>,
    obsMode: Option<string>,
    offPos: Option<string>,
    offLambda: Option<string>,
    offBeta: Option<string>,
    unsupportedWarning: bool)

  /** The AOR fields the chop-type mapping reads. */
  datatype ChopRequest = ChopRequest(
    chopType: string,
    referenceType: string,
    mapRefPos: string,
    refRA: string,
    refDec: string,
    raOffset: string,
    decOffset: string)

  /** Symmetric chopping tracks on and nods against a matched off position;
      asymmetric chopping tracks off, with an absolute off position (mapping
      relative to it is refused with a warning) or one offset from the
      target or from the active map position. */
  function ChopMapping(a: ChopRequest): (s: ChopSettings)
    ensures a.chopType == "Sym" ==>
      s == ChopSettings(Some("On"), Some("Symmetric"), Some("Matched"), Some("0.0"), Some("0.0"), false)
    ensures a.chopType == "Asym" ==> s.tracking == Some("Off") && s.obsMode == Some("Asymmetric")
    ensures a.chopType != "Sym" && a.chopType != "Asym" ==>
      s == ChopSettings(None, None, None, None, None, false)
    ensures s.unsupportedWarning <==>
      a.chopType == "Asym" && a.referenceType == "RA_Dec" && a.mapRefPos == "true"
    ensures a.chopType == "Asym" && a.referenceType == "RA_Dec" ==>
      s.offPos == Some("Absolute") && s.offLambda == Some(a.refRA) && s.offBeta == Some(a.refDec)
    ensures a.chopType == "Asym" && a.referenceType == "Offset" ==>
      s.offLambda == Some(a.raOffset) && s.offBeta == Some(a.decOffset)
      && (s.offPos.Some? <==> a.mapRefPos in {"true", "false"})
      && (a.mapRefPos == "true" ==> s.offPos == Some("Relative to active pos"))
      && (a.mapRefPos == "false" ==> s.offPos == Some("Relative to target"))
    ensures a.chopType == "Asym" && a.referenceType != "RA_Dec" && a.referenceType != "Offset" ==>
      s.offPos.None? && s.offLambda.None? && s.offBeta.None?
  {
    if a.chopType == "Sym" then
      ChopSettings(Some("On"), Some("Symmetric"), Some("Matched"), Some("0.0"), Some("0.0"), false)
    else if a.chopType == "Asym" then
      if a.referenceType == "RA_Dec" then
        ChopSettings(Some("Off"), Some("Asymmetric"), Some("Absolute"), Some(a.refRA), Some(a.refDec),
                     a.mapRefPos == "true")
      else if a.referenceType == "Offset" then
        var pos := if a.mapRefPos == "true" then Some("Relative to active pos")
                   else if a.mapRefPos == "false" then Some("Relative to target")
                   else None;
        ChopSettings(Some("Off"), Some("Asymmetric"), pos, Some(a.raOffset), Some(a.decOffset), false)
      else
        ChopSettings(Some("Off"), Some("Asymmetric"), None, None, None, false)
    else
      ChopSettings(None, None, None, None, None, false)
  }

  /** Tracking is on exactly for symmetric chopping, and the off position is
      matched exactly then. */
  lemma TrackingOnIffSymmetric(a: ChopRequest)
    ensures ChopMapping(a).tracking == Some("On") <==> a.chopType == "Sym"
    ensures ChopMapping(a).offPos == Some("Matched") <==> a.chopType == "Sym"
  {
  }

  /** `PRIMARYARRAY` from the AOR's prime array; anything else leaves `None`. */
  function PrimaryArray(primeArray: string): (r: Option<string>)
    ensures r == Some("BLUE") <==> primeArray == "Blue"
    ensures r == Some("RED") <==> primeArray == "Red"
    ensures r.None? <==> primeArray != "Blue" && primeArray != "Red"
  {
    if primeArray == "Blue" then Some("BLUE")
    else if primeArray == "Red" then Some("RED")
    else None
  }

  /** The primary-array keyword, when set, is the AOR's value upper-cased. */
  lemma PrimaryArrayIsUpper(primeArray: string)
    ensures PrimaryArray(primeArray).Some? ==> PrimaryArray(primeArray).value == Upper(primeArray)
  {
  }

  /** `DICHROIC`: the first three characters of the AOR's dichroic (`105` or
      `130`), fewer when it is shorter. */
  function Dichroic(d: string): (r: string)
    ensures |r| == Min(3, |d|)
    ensures r <= d
  {
    d[..Min(3, |d|)]
  }

  // ---------------------------------------------------------------- counts

  /** Python's `math.ceil` on a real. */
  function Ceil(x: real): (c: int)
    ensures c as real - 1.0 < x <= c as real
  {
    -((-x).Floor)
  }

  /** A number of pixels clamped from below to six (`max([x, 6.])`). */
  function ClampPixels(x: real): (r: real)
    ensures r >= 6.0 && r >= x
    ensures r == x || r == 6.0
  {
    if x >= 6.0 then x else 6.0
  }

  /** A numpy float64 value: a finite number, an infinity or NaN. */
  datatype Float = Finite(v: real) | PosInf | NegInf | NaN

  /** A division whose divisor is a numpy float64, as the pixel scale
      `np.polyval` returns is: the quotient for a non-zero divisor; for a zero
      one numpy warns and gives the infinity of the dividend's sign, or NaN
      for 0/0, instead of raising. */
  function NumpyDiv(a: real, b: real): (q: Float)
    ensures q.Finite? <==> b != 0.0
    ensures q.Finite? ==> q.v * b == a
    ensures q == PosInf <==> b == 0.0 && a > 0.0
    ensures q == NegInf <==> b == 0.0 && a < 0.0
    ensures q == NaN <==> b == 0.0 && a == 0.0
  {
    if b != 0.0 then Finite(a / b)
    else if a > 0.0 then PosInf
    else if a < 0.0 then NegInf
    else NaN
  }

  /** `max([x, 6.])`: Python's `max` keeps the first item unless a later one
      is greater, and every comparison with NaN is false, so -inf becomes 6
      while +inf and NaN stay. */
  function ClampFloat(x: Float): (r: Float)
    ensures x.Finite? ==> r == Finite(ClampPixels(x.v))
    ensures x == NegInf ==> r == Finite(6.0)
    ensures x == PosInf || x == NaN ==> r == x
    ensures r.Finite? ==> r.v >= 6.0
  {
    match x
    case Finite(v) => Finite(ClampPixels(v))
    case NegInf => Finite(6.0)
    case PosInf => PosInf
    case NaN => NaN
  }

  /** The bandwidth in pixels: a spectral scan gives it in micron, every other
      mode in km/s, converted through the line's wavelength. Only the
      division by the speed of light, a Python float, can raise here; the
      division by the pixel scale is numpy's. */
  function BandwidthPixels(spectralScan: bool, bandwidth: real, wavelength: real, speedOfLight: real, umPerPix: real): (r: Result<Float>)
    ensures r.Err? <==> !spectralScan && speedOfLight == 0.0
    ensures r.Ok? ==> r.value != NegInf && (r.value.Finite? ==> r.value.v >= 6.0)
    ensures spectralScan && umPerPix != 0.0 ==> r == Ok(Finite(ClampPixels(bandwidth / umPerPix)))
    ensures !spectralScan && speedOfLight != 0.0 && umPerPix != 0.0 ==>
      r == Ok(Finite(ClampPixels(bandwidth * wavelength / speedOfLight / umPerPix)))
  {
    if spectralScan then Ok(ClampFloat(NumpyDiv(bandwidth, umPerPix)))
    else if speedOfLight == 0.0 then Err("float division by zero")
    else Ok(ClampFloat(NumpyDiv(bandwidth * wavelength / speedOfLight, umPerPix)))
  }

  /** A zero pixel scale does not stop the translator where it divides: a
      negative dividend clamps to 6 pixels and the translation goes on, any
      other dividend leaves an infinity or NaN on which the grating-position
      count raises. */
  lemma ZeroPixelScale(spectralScan: bool, bandwidth: real, wavelength: real, speedOfLight: real, nodCycles: int, maxStep: real)
    requires spectralScan || speedOfLight != 0.0
    ensures var d := if spectralScan then bandwidth else bandwidth * wavelength / speedOfLight;
            var b := BandwidthPixels(spectralScan, bandwidth, wavelength, speedOfLight, 0.0);
            b.Ok?
            && (d < 0.0 ==> b.value == Finite(6.0))
            && (d >= 0.0 ==> PosUp(b.value, nodCycles, maxStep).Err?)
  {
  }

  /** `BLUE_POSUP` / `RED_POSUP`: the grating steps of one nod, rounded up to
      whole steps of at most `maxStep` pixels, times the number of nod
      cycles. A zero cycle count or step size raises, as does `math.ceil`
      of an infinity or NaN. */
  function PosUp(bandwidthPix: Float, nodCycles: int, maxStep: real): (r: Result<int>)
    ensures r.Err? <==> nodCycles == 0 || maxStep == 0.0 || !bandwidthPix.Finite?
    ensures r.Ok? ==> r.value % nodCycles == 0
  {
    if nodCycles == 0 || maxStep == 0.0 then Err("division by zero")
    else if !bandwidthPix.Finite? then Err("cannot convert float infinity or NaN to integer")
    else
      var pixPerNod := bandwidthPix.v / nodCycles as real;
      var steps := Ceil(pixPerNod / maxStep);
      MultipleMod(steps, nodCycles);
      Ok(steps * nodCycles)
  }

  lemma MultipleMod(k: int, n: int)
    requires n != 0
    ensures (k * n) % n == 0
  {
    var q := (k * n) / n;
    var r := (k * n) % n;
    assert (k - q) * n == r by {
      assert k * n == q * n + r;
    }
    if k - q != 0 {
      NonZeroProduct(k - q, n);
      assert false;
    }
  }

  /** A non-zero multiple of `n` is at least `|n|` away from zero. */
  lemma NonZeroProduct(a: int, n: int)
    requires a != 0 && n != 0
    ensures a * n >= (if n > 0 then n else -n) || a * n <= -(if n > 0 then n else -n)
  {
    var absA := if a > 0 then a else -a;
    var absN := if n > 0 then n else -n;
    MulAtLeast(absA, absN);
    assert a * n == absA * absN || a * n == -(absA * absN);
  }

  lemma {:induction false} MulAtLeast(a: int, n: int)
    requires a >= 1 && n >= 1
    ensures a * n >= n
    decreases a
  {
    if a > 1 {
      MulAtLeast(a - 1, n);
      assert a * n == (a - 1) * n + n;
    }
  }

  /** With a positive cycle count and step size, the count of grating
      positions is the least multiple of the cycle count whose steps cover
      the bandwidth; a clamped bandwidth makes it at least one per cycle. */
  lemma {:induction false} PosUpCovers(bandwidthPix: real, nodCycles: int, maxStep: real)
    requires nodCycles >= 1 && maxStep > 0.0 && bandwidthPix > 0.0
    ensures PosUp(Finite(bandwidthPix), nodCycles, maxStep).Ok?
    ensures var p := PosUp(Finite(bandwidthPix), nodCycles, maxStep).value;
            p >= nodCycles
            && p as real * maxStep >= bandwidthPix
            && (p - nodCycles) as real * maxStep < bandwidthPix
  {
    var n := nodCycles as real;
    var pixPerNod := bandwidthPix / n;
    var c := Ceil(pixPerNod / maxStep);
    var p := PosUp(Finite(bandwidthPix), nodCycles, maxStep).value;
    assert p == c * nodCycles;
    assert pixPerNod * n == bandwidthPix;
    assert pixPerNod > 0.0;
    CeilCovers(pixPerNod, maxStep);
    assert c as real * maxStep >= pixPerNod;
    assert (c - 1) as real * maxStep < pixPerNod;
    assert c >= 1 by {
      assert pixPerNod / maxStep > 0.0;
    }
    assert p >= nodCycles by {
      assert c * nodCycles >= 1 * nodCycles;
    }
    MulMonotone(pixPerNod, c as real * maxStep, n);
    MulStrict((c - 1) as real * maxStep, pixPerNod, n);
    assert p as real * maxStep == c as real * maxStep * n;
    assert (p - nodCycles) as real * maxStep == (c - 1) as real * maxStep * n;
  }

  lemma MulMonotone(a: real, b: real, m: real)
    requires a <= b && m > 0.0
    ensures a * m <= b * m
  {
  }

  lemma MulStrict(a: real, b: real, m: real)
    requires a < b && m > 0.0
    ensures a * m < b * m
  {
  }

  /** `BLUE_CHOPCYC` / `RED_CHOPCYC`: the chop cycles of one nod spread over
      the grating positions of one split (always one split), rounded up. No
      grating positions raises. */
  function ChopCycles(timePerPoint: real, nodCycles: int, posUp: int): (r: Result<int>)
    ensures r.Err? <==> posUp == 0
    ensures r.Ok? && posUp > 0 ==>
      r.value as real * posUp as real >= 2.0 * timePerPoint * nodCycles as real
      && (r.value - 1) as real * posUp as real < 2.0 * timePerPoint * nodCycles as real
  {
    if posUp == 0 then Err("float division by zero")
    else
      var total := 2.0 * timePerPoint * nodCycles as real;
      var c := Ceil(total / posUp as real);
      assert posUp > 0 ==> c as real * posUp as real >= total && (c - 1) as real * posUp as real < total by {
        if posUp > 0 { CeilCovers(total, posUp as real); }
      }
      Ok(c)
  }

  /** Rounding a quotient up gives the least whole count of divisors that
      covers the dividend. */
  lemma CeilCovers(total: real, d: real)
    requires d > 0.0
    ensures Ceil(total / d) as real * d >= total
    ensures (Ceil(total / d) - 1) as real * d < total
  {
    var x := total / d;
    var c := Ceil(x);
    assert x * d == total;
    assert (c - 1) as real == c as real - 1.0;
    MulMonotone(x, c as real, d);
    MulStrict((c - 1) as real, x, d);
    assert (c - 1) as real * d < x * d;
    assert (c - 1) as real * d < total;
  }
}

=== FILE: grating.dfy ===
/** The discrete part of the grating calibration: which calibration channel
    an (array, dichroic, order) triple uses, which calibration epoch applies
    to an observation date, which row of the table is read, where each of the
    25 spatial modules sits on the slit, and the shape of the wavelength cube
    the forward conversion fills. The wavelength formula itself is a
    parameter. */
module Grating {
  import opened Results
  import Derivations

  // ---------------------------------------------------------------- channel

  datatype ChannelCode = R105 | R130 | B1 | B2

  /** The calibration channel: the red array by dichroic, the blue array by
      grating order. */
  function Channel(arrayName: string, dichroic: string, order: string): (c: ChannelCode)
    ensures c == R105 <==> arrayName == "RED" && dichroic == "105"
    ensures c == R130 <==> arrayName == "RED" && dichroic != "105"
    ensures c == B1 <==> arrayName != "RED" && order == "1"
    ensures c == B2 <==> arrayName != "RED" && order != "1"
  {
    if arrayName == "RED" then
      if dichroic == "105" then R105 else R130
    else
      if order == "1" then B1 else B2
  }

  /** The name of a channel in the calibration table's `ch` column. */
  function ChannelName(c: ChannelCode): string {
    match c
    case R105 => "R105"
    case R130 => "R130"
    case B1 => "B1"
    case B2 => "B2"
  }

  lemma ChannelNameInjective(c: ChannelCode, d: ChannelCode)
    ensures ChannelName(c) == ChannelName(d) ==> c == d
  {
    if ChannelName(c) == ChannelName(d) {
      assert ChannelName(c)[|ChannelName(c)| - 1] == ChannelName(d)[|ChannelName(d)| - 1];
    }
  }

  /** The blue array uses the first-order calibration exactly when the AOR
      translator chose the first order, from 71 micron on. */
  lemma BlueChannelFollowsOrder(arrayName: string, dichroic: string, blueLam: real)
    requires arrayName != "RED"
    ensures Channel(arrayName, dichroic, Derivations.Order(blueLam)) == B1 <==> blueLam >= 71.0
    ensures Channel(arrayName, dichroic, Derivations.Order(blueLam)) == B2 <==> blueLam < 71.0
  {
  }

  /** The grating's fixed angle offset: one value for the red array, another
      for everything else. */
  function Gamma(arrayName: string): (g: real)
    ensures g == 0.0167200 <==> arrayName == "RED"
    ensures g == 0.0089008 <==> arrayName != "RED"
  {
    if arrayName == "RED" then 0.0167200 else 0.0089008
  }

  /** The red angle offset goes with exactly the red calibration channels:
      both are chosen by whether the array is the red one. */
  lemma GammaFollowsChannel(arrayName: string, dichroic: string, order: string)
    ensures Gamma(arrayName) == 0.0167200 <==> Channel(arrayName, dichroic, order) in {R105, R130}
  {
  }

  // ---------------------------------------------------------------- epoch

  /** The calibration epoch for an observation date: the latest table date
      strictly before it. `None` is the failure of taking the maximum of no
      dates. Sorting and de-duplicating the dates first, and the scan over
      them that breaks at the first date not before the observation, change
      nothing. */
  function LatestBefore(dates: seq<int>, obsdate: int): (r: Option<int>)
    ensures r.None? <==> forall i :: 0 <= i < |dates| ==> dates[i] >= obsdate
    ensures r.Some? ==> r.value in dates && r.value < obsdate
    ensures r.Some? ==> forall i :: 0 <= i < |dates| && dates[i] < obsdate ==> dates[i] <= r.value
    decreases |dates|
  {
    if dates == [] then None
    else
      var init := dates[..|dates| - 1];
      var d := dates[|dates| - 1];
      var rest := LatestBefore(init, obsdate);
      assert dates == init + [d];
      if d >= obsdate then rest
      else if rest.Some? && rest.value >= d then rest
      else Some(d)
  }

  /** A later observation never gets an earlier calibration epoch. */
  lemma LatestBeforeMonotone(dates: seq<int>, early: int, late: int)
    requires early <= late
    requires LatestBefore(dates, early).Some?
    ensures LatestBefore(dates, late).Some?
    ensures LatestBefore(dates, early).value <= LatestBefore(dates, late).value
  {
    var e := LatestBefore(dates, early).value;
    var i :| 0 <= i < |dates| && dates[i] == e;
    assert dates[i] < late;
  }

  /** The epoch is the same for any two dates that fall between the same two
      consecutive table dates. */
  lemma LatestBeforeStable(dates: seq<int>, obsdate: int, other: int)
    requires LatestBefore(dates, obsdate).Some?
    requires LatestBefore(dates, obsdate).value < other <= obsdate
    ensures LatestBefore(dates, other) == LatestBefore(dates, obsdate)
  {
    var e := LatestBefore(dates, obsdate).value;
    var i :| 0 <= i < |dates| && dates[i] == e;
    assert dates[i] < other;
    var f := LatestBefore(dates, other).value;
    var j :| 0 <= j < |dates| && dates[j] == f;
    assert dates[j] < obsdate;
  }

  // ---------------------------------------------------------------- table

  /** The 25 inductosyn offsets of a calibration row, one per module. */
  type ModuleOffsets = s: seq<real> | |s| == 25 witness seq(25, _ => 0.0)

  /** One row of the wavelength calibration table. */
  datatype CalRow = CalRow(
    date: int,
    ch: string,
    g0: real,
    np: real,
    a: real,
    ps: real,
    qoff: real,
    qs: real,
    isoff: ModuleOffsets)

  function Dates(table: seq<CalRow>): (ds: seq<int>)
    ensures |ds| == |table|
    ensures forall i :: 0 <= i < |table| ==> ds[i] == table[i].date
  {
    seq(|table|, i requires 0 <= i < |table| => table[i].date)
  }

  predicate RowFor(row: CalRow, date: int, ch: string) {
    row.date == date && row.ch == ch
  }

  /** The index of the first row of `table` for the epoch and channel. */
  function FirstRowFor(table: seq<CalRow>, date: int, ch: string): (r: Option<nat>)
    ensures r.None? <==> forall i :: 0 <= i < |table| ==> !RowFor(table[i], date, ch)
    ensures r.Some? ==> r.value < |table| && RowFor(table[r.value], date, ch)
    ensures r.Some? ==> forall j :: 0 <= j < r.value ==> !RowFor(table[j], date, ch)
    decreases |table|
  {
    if table == [] then None
    else if RowFor(table[0], date, ch) then Some(0)
    else
      var rest := FirstRowFor(table[1..], date, ch);
      if rest.None? then None else Some(rest.value + 1)
  }

  /** The calibration row the forward conversion reads: the first row of the
      epoch for the observation date and of the channel. It fails when no
      table date precedes the observation, and when the epoch has no row for
      the channel (there is no fall-back to an earlier epoch). */
  function SelectCalibration(table: seq<CalRow>, channel: ChannelCode, obsdate: int): (r: Result<CalRow>)
    ensures r.Err? <==>
      LatestBefore(Dates(table), obsdate).None?
      || FirstRowFor(table, LatestBefore(Dates(table), obsdate).value, ChannelName(channel)).None?
    ensures r.Ok? ==> exists k :: 0 <= k < |table| && table[k] == r.value
                                  && forall j :: 0 <= j < k ==> !RowFor(table[j], r.value.date, r.value.ch)
    ensures r.Ok? ==> r.value.date < obsdate && r.value.ch == ChannelName(channel)
    ensures r.Ok? ==> forall i :: 0 <= i < |table| && table[i].date < obsdate ==> table[i].date <= r.value.date
  {
    var caldate := LatestBefore(Dates(table), obsdate);
    if caldate.None? then Err("zero-size array to reduction operation maximum which has no identity")
    else
      var k := FirstRowFor(table, caldate.value, ChannelName(channel));
      if k.None? then Err("index 0 is out of bounds")
      else
        var ds := Dates(table);
        assert forall i :: 0 <= i < |table| && table[i].date < obsdate ==> ds[i] < obsdate;
        Ok(table[k.value])
  }

  /** A row of the channel dated before the observation guarantees an epoch,
      but not a calibration: when the latest epoch has no row for the
      channel, the selection fails even though an earlier epoch has one. */
  lemma SelectCalibrationNoFallback(table: seq<CalRow>, channel: ChannelCode, obsdate: int, k: nat)
    requires k < |table| && table[k].ch == ChannelName(channel) && table[k].date < obsdate
    ensures LatestBefore(Dates(table), obsdate).Some?
    ensures (forall i :: 0 <= i < |table| && table[i].ch == ChannelName(channel) ==>
               table[i].date != LatestBefore(Dates(table), obsdate).value)
            <==> SelectCalibration(table, channel, obsdate).Err?
  {
    assert Dates(table)[k] < obsdate;
    var e := LatestBefore(Dates(table), obsdate).value;
    if SelectCalibration(table, channel, obsdate).Err? {
      forall i | 0 <= i < |table| && table[i].ch == ChannelName(channel)
        ensures table[i].date != e
      {
        assert !RowFor(table[i], e, ChannelName(channel));
      }
    }
  }

  // ---------------------------------------------------------------- slit

  /** The slit position of spatial module `m`: five groups of five modules,
      each group six positions below the previous one. */
  function SlitPosition(m: int): (p: int)
    requires 0 <= m < 25
    ensures 1 <= p <= 29
    ensures p % 6 != 0
  {
    25 - 6 * (m / 5) + m % 5
  }

  /** The module at slit position `p`, for positions that hold one. */
  function ModuleAt(p: int): (m: int)
    requires 1 <= p <= 29 && p % 6 != 0
    ensures 0 <= m < 25
  {
    5 * (4 - (p - 1) / 6) + (p - 1) % 6
  }

  /** Every module is found back at its slit position. */
  lemma ModuleAtSlitPosition(m: int)
    requires 0 <= m < 25
    ensures ModuleAt(SlitPosition(m)) == m
  {
    var a := m / 5;
    var b := m % 5;
    assert SlitPosition(m) - 1 == 6 * (4 - a) + b;
    assert (SlitPosition(m) - 1) / 6 == 4 - a;
    assert (SlitPosition(m) - 1) % 6 == b;
  }

  /** The positions 1..29 other than the multiples of six are exactly the
      slit positions of the modules. */
  lemma SlitPositionAtModule(p: int)
    requires 1 <= p <= 29 && p % 6 != 0
    ensures SlitPosition(ModuleAt(p)) == p
  {
    var m := ModuleAt(p);
    var q := (p - 1) / 6;
    var b := (p - 1) % 6;
    assert b <= 4;
    assert m / 5 == 4 - q;
    assert m % 5 == b;
  }

  /** No two modules share a slit position. */
  lemma SlitPositionInjective(m: int, n: int)
    requires 0 <= m < 25 && 0 <= n < 25
    ensures SlitPosition(m) == SlitPosition(n) ==> m == n
  {
    ModuleAtSlitPosition(m);
    ModuleAtSlitPosition(n);
  }

  // ---------------------------------------------------------------- cube

  /** The grating position argument: one position, or a list of them. */
  datatype GratingInput = Position(pos: real) | Positions(list: seq<real>)

  /** A single position is taken as a list of one. */
  function AsList(g: GratingInput): (ps: seq<real>)
    ensures g.Position? ==> ps == [g.pos]
    ensures g.Positions? ==> ps == g.list
  {
    match g
    case Position(x) => [x]
    case Positions(xs) => xs
  }

  /** A per-pixel formula of the inductosyn reading, the slit position and
      the pixel number. */
  type Formula<T> = (real, int, int) -> T

  /** The forward conversion's loop: for each grating position, each of the
      25 modules and each of the 16 pixels (numbered from 1), the formula
      `f` evaluated at the inductosyn reading corrected by the module's
      offset, the module's slit position and the pixel. The wavelength and
      its derivative cubes are both of this form. */
  function Forward<T>(g: GratingInput, isoff: ModuleOffsets, f: Formula<T>): (cube: seq<seq<seq<T>>>)
    ensures |cube| == |AsList(g)|
    ensures forall ig :: 0 <= ig < |cube| ==> |cube[ig]| == 25
    ensures forall ig, m :: 0 <= ig < |cube| && 0 <= m < 25 ==> |cube[ig][m]| == 16
    ensures forall ig, m, k :: 0 <= ig < |cube| && 0 <= m < 25 && 0 <= k < 16 ==>
              cube[ig][m][k] == f(AsList(g)[ig] + isoff[m], SlitPosition(m), k + 1)
  {
    var gs := AsList(g);
    seq(|gs|, ig requires 0 <= ig < |gs| =>
      seq(25, m requires 0 <= m < 25 =>
        seq(16, k requires 0 <= k < 16 => f(gs[ig] + isoff[m], SlitPosition(m), k + 1))))
  }

  /** A scalar grating position gives the same cube as the list holding it. */
  lemma ForwardScalar<T>(x: real, isoff: ModuleOffsets, f: Formula<T>)
    ensures Forward(Position(x), isoff, f) == Forward(Positions([x]), isoff, f)
    ensures |Forward(Position(x), isoff, f)| == 1
  {
  }

  /** The grating positions the inverse conversion samples: 0 to 2 990 000
      in steps of 10 000. */
  function InverseGrid(): (grid: seq<real>)
    ensures |grid| == 300
    ensures grid[0] == 0.0 && grid[299] == 2990000.0
    ensures forall i :: 0 <= i < 299 ==> grid[i + 1] - grid[i] == 10000.0
  {
    seq(300, i requires 0 <= i < 300 => (i * 10) as real * 1000.0)
  }

  /** The sampled positions increase strictly, as interpolation over them
      needs. */
  lemma {:induction false} InverseGridIncreasing(i: int, j: int)
    requires 0 <= i < j < 300
    ensures InverseGrid()[i] < InverseGrid()[j]
    decreases j - i
  {
    var grid := InverseGrid();
    if j > i + 1 {
      InverseGridIncreasing(i, j - 1);
    }
    assert grid[j] - grid[j - 1] == 10000.0;
  }

  /** The inverse conversion evaluates the forward one on the whole grid: 300
      cubes of 25 modules by 16 pixels. */
  lemma InverseSamplesShape<T>(isoff: ModuleOffsets, f: Formula<T>)
    ensures var cube := Forward(Positions(InverseGrid()), isoff, f);
            |cube| == 300
            && (forall ig :: 0 <= ig < 300 ==> |cube[ig]| == 25)
            && (forall ig, m :: 0 <= ig < 300 && 0 <= m < 25 ==> |cube[ig][m]| == 16)
  {
  }
}

=== FILE: mapfile.dfy ===
/** The map-list file: a header line with the target's sexagesimal
    coordinates (six whitespace-separated fields), then one line per map
    offset. The AOR translator writes it; `readMap` checks its shape and
    counts its points. */
module MapFile {
  import opened Results
  import opened PyText
  import opened PyLines
  import opened Seqs

  /** What `readMap` does with a file: the number of map points and the path,
      `None` after one of its two messages, or the error raised when the file
      is empty and the line counter of its loop was never bound. */
  datatype MapRead =
    | Loaded(numMapPoints: nat, mapListPath: string)
    | Rejected(reason: string)
    | Unbound

  /** `readMap(filename)` on a file whose text is `content`. An empty file
      raises; a file of one line, or whose first line does not have exactly
      six whitespace-separated fields, is rejected; otherwise every line after
      the header is one map point. */
  function ReadMap(filename: string, content: string): (r: MapRead)
    ensures r.Unbound? <==> content == []
    ensures r.Loaded? <==> |SplitLines(content)| >= 2 && |Words(SplitLines(content)[0])| == 6
    ensures r.Loaded? ==> r.numMapPoints + 1 == |SplitLines(content)| && r.mapListPath == filename
  {
    var lines := SplitLines(content);
    if lines == [] then Unbound
    else if |lines| < 2 then Rejected("Map file is empty.")
    else if |Words(lines[0])| != 6 then Rejected("File is not a map file.")
    else Loaded(|lines| - 1, filename)
  }

  /** One field of a coordinate: `str()` of a number, with no blank in it. */
  predicate IsField(s: string) {
    s != [] && NoSpace(s)
  }

  /** Coordinates as the translator renders them: three fields joined by
      single blanks (`ihr imin xsec`, `sign+ideg imn xsc`). */
  function Sexagesimal(a: string, b: string, c: string): string {
    a + " " + b + " " + c
  }

  /** The header: both coordinates right-justified to 12 characters. A
      coordinate shorter than 12 ends its 12-character column, after blanks. */
  function HeaderLine(lam: string, bet: string): (h: string)
    ensures |h| == Max(12, |lam|) + Max(12, |bet|) + 1 && h[|h| - 1] == '\n'
    ensures |lam| <= 12 && |bet| <= 12 ==>
      |h| == 25
      && h[12 - |lam|..12] == lam && h[24 - |bet|..24] == bet
      && (forall i :: 0 <= i < 12 - |lam| ==> h[i] == ' ')
      && (forall i :: 12 <= i < 24 - |bet| ==> h[i] == ' ')
  {
    var a := RJust(lam, 12);
    var b := RJust(bet, 12);
    assert (a + b + "\n")[..|a|] == a;
    assert (a + b + "\n")[|a|..|a| + |b|] == b;
    a + b + "\n"
  }

  /** A map offset pair, each number already rendered by `str(round(x, 4))`. */
  datatype Offset = Offset(dLambda: string, dBeta: string)

  /** One offset line: the first number right-justified to 12, the second to
      `max(12, len + 2)`, so at least two blanks always separate the two. */
  function OffsetLine(o: Offset): (l: string)
    ensures var w := Max(12, |o.dLambda|);
            |l| == w + Max(12, |o.dBeta| + 2) + 1 && l[|l| - 1] == '\n'
            && l[w - |o.dLambda|..w] == o.dLambda
            && l[|l| - 1 - |o.dBeta|..|l| - 1] == o.dBeta
            && l[w] == ' ' && l[w + 1] == ' '
            && (forall i :: 0 <= i < w - |o.dLambda| ==> l[i] == ' ')
            && (forall i :: w <= i < |l| - 1 - |o.dBeta| ==> l[i] == ' ')
  {
    var a := RJust(o.dLambda, 12);
    var b := RJust(o.dBeta, Max(12, |o.dBeta| + 2));
    assert (a + b + "\n")[..|a|] == a;
    assert (a + b + "\n")[|a|..|a| + |b|] == b;
    assert forall i :: 0 <= i < |a| ==> (a + b + "\n")[i] == a[i];
    assert forall i :: 0 <= i < |b| ==> (a + b + "\n")[|a| + i] == b[i];
    a + b + "\n"
  }

  /** The lines of the map file the translator writes. Every offset line ends
      in '\n': the branch that writes a single offset without one is never
      taken, since each row of the rotated offsets holds two numbers. */
  function MapLines(lam: string, bet: string, offsets: seq<Offset>): (lines: seq<string>)
    ensures |lines| == |offsets| + 1
    ensures lines[0] == HeaderLine(lam, bet)
    ensures forall k :: 0 <= k < |offsets| ==> lines[k + 1] == OffsetLine(offsets[k])
  {
    var header := HeaderLine(lam, bet);
    var rest := OffsetLines(offsets);
    assert forall k :: 0 <= k < |rest| ==> ([header] + rest)[k + 1] == rest[k];
    [header] + rest
  }

  function OffsetLines(offsets: seq<Offset>): (lines: seq<string>)
    ensures |lines| == |offsets|
    ensures forall k :: 0 <= k < |offsets| ==> lines[k] == OffsetLine(offsets[k])
  {
    seq(|offsets|, k requires 0 <= k < |offsets| => OffsetLine(offsets[k]))
  }

  /** `split()` finds the three fields of a coordinate between whitespace. */
  lemma SexagesimalWords(ws: string, a: string, b: string, c: string, rest: string)
    requires AllSpace(ws) && IsField(a) && IsField(b) && IsField(c)
    requires rest == [] || IsSpace(rest[0])
    ensures Words(ws + Sexagesimal(a, b, c) + rest) == [a, b, c] + Words(rest)
  {
    var r1 := " " + b + (" " + c + rest);
    SexagesimalLayout(ws, a, b, c, rest);
    assert Words(ws + a + r1) == [a] + Words(r1) by {
      assert r1[0] == ' ';
      WordsCons(ws, a, r1);
    }
    TwoFields(b, c, rest);
    ConsOnTwo(Words(ws + a + r1), Words(r1), Words(rest), a, b, c);
  }

  /** `split()` on the two blank-led fields that end a coordinate. */
  lemma TwoFields(b: string, c: string, rest: string)
    requires IsField(b) && IsField(c)
    requires rest == [] || IsSpace(rest[0])
    ensures Words(" " + b + (" " + c + rest)) == [b, c] + Words(rest)
  {
    var r2 := " " + c + rest;
    WordAfterBlank(c, rest);
    WordAfterBlank(b, r2);
    ConsTwo(Words(" " + b + r2), Words(r2), Words(rest), b, c);
  }

  lemma SexagesimalLayout(ws: string, a: string, b: string, c: string, rest: string)
    ensures ws + Sexagesimal(a, b, c) + rest == ws + a + (" " + b + (" " + c + rest))
  {
  }

  lemma WordAfterBlank(w: string, rest: string)
    requires IsField(w)
    requires rest == [] || IsSpace(rest[0])
    ensures Words(" " + w + rest) == [w] + Words(rest)
    ensures IsSpace((" " + w + rest)[0])
  {
    assert AllSpace(" ");
    WordsCons(" ", w, rest);
  }

  /** `split()` finds the six coordinate fields in the header. */
  lemma HeaderWords(a1: string, a2: string, a3: string, b1: string, b2: string, b3: string)
    requires IsField(a1) && IsField(a2) && IsField(a3)
    requires IsField(b1) && IsField(b2) && IsField(b3)
    requires |Sexagesimal(a1, a2, a3)| < 12 && |Sexagesimal(b1, b2, b3)| < 12
    ensures Words(HeaderLine(Sexagesimal(a1, a2, a3), Sexagesimal(b1, b2, b3))) == [a1, a2, a3, b1, b2, b3]
  {
    var lam := Sexagesimal(a1, a2, a3);
    var bet := Sexagesimal(b1, b2, b3);
    var p := Spaces(12 - |lam|);
    var q := Spaces(12 - |bet|);
    HeaderLayout(lam, bet);
    assert AllSpace(p) && AllSpace(q) && q != [];
    CoordinateWords(p, q, a1, a2, a3, b1, b2, b3);
  }

  /** Two coordinates, each after a run of whitespace, and a newline. */
  lemma CoordinateWords(p: string, q: string, a1: string, a2: string, a3: string, b1: string, b2: string, b3: string)
    requires AllSpace(p) && AllSpace(q) && q != []
    requires IsField(a1) && IsField(a2) && IsField(a3)
    requires IsField(b1) && IsField(b2) && IsField(b3)
    ensures Words(p + Sexagesimal(a1, a2, a3) + (q + Sexagesimal(b1, b2, b3) + "\n"))
            == [a1, a2, a3, b1, b2, b3]
  {
    var tail := q + Sexagesimal(b1, b2, b3) + "\n";
    assert Words(p + Sexagesimal(a1, a2, a3) + tail) == [a1, a2, a3] + Words(tail) by {
      assert tail[0] == q[0];
      SexagesimalWords(p, a1, a2, a3, tail);
    }
    assert Words(tail) == [b1, b2, b3] by {
      WordsOfSpace("\n");
      SexagesimalWords(q, b1, b2, b3, "\n");
    }
    SixFields(Words(p + Sexagesimal(a1, a2, a3) + tail), a1, a2, a3, b1, b2, b3);
  }

  lemma HeaderLayout(lam: string, bet: string)
    requires |lam| < 12 && |bet| < 12
    ensures HeaderLine(lam, bet) == Spaces(12 - |lam|) + lam + (Spaces(12 - |bet|) + bet + "\n")
  {
  }

  lemma FieldsNoNewline(a: string, b: string, c: string)
    requires IsField(a) && IsField(b) && IsField(c)
    ensures '\n' !in Sexagesimal(a, b, c)
  {
    assert IsSpace('\n');
    assert '\n' !in a && '\n' !in b && '\n' !in c;
  }

  lemma RJustNoNewline(s: string, w: int)
    requires '\n' !in s
    ensures '\n' !in RJust(s, w)
  {
  }

  lemma HeaderFullLine(a1: string, a2: string, a3: string, b1: string, b2: string, b3: string)
    requires IsField(a1) && IsField(a2) && IsField(a3)
    requires IsField(b1) && IsField(b2) && IsField(b3)
    ensures FullLine(HeaderLine(Sexagesimal(a1, a2, a3), Sexagesimal(b1, b2, b3)))
  {
    var lam := Sexagesimal(a1, a2, a3);
    var bet := Sexagesimal(b1, b2, b3);
    var h := HeaderLine(lam, bet);
    var body := RJust(lam, 12) + RJust(bet, 12);
    assert h == body + "\n";
    assert h[..|h| - 1] == body;
    FieldsNoNewline(a1, a2, a3);
    FieldsNoNewline(b1, b2, b3);
    RJustNoNewline(lam, 12);
    RJustNoNewline(bet, 12);
  }

  lemma OffsetFullLine(o: Offset)
    requires '\n' !in o.dLambda && '\n' !in o.dBeta
    ensures FullLine(OffsetLine(o))
  {
    var l := OffsetLine(o);
    assert l[..|l| - 1] == RJust(o.dLambda, 12) + RJust(o.dBeta, Max(12, |o.dBeta| + 2));
  }

  /** A map file the translator writes is accepted by `readMap`, which counts
      one map point per written offset. */
  lemma WrittenMapReadsBack(path: string, a1: string, a2: string, a3: string, b1: string, b2: string, b3: string, offsets: seq<Offset>)
    requires IsField(a1) && IsField(a2) && IsField(a3)
    requires IsField(b1) && IsField(b2) && IsField(b3)
    requires |Sexagesimal(a1, a2, a3)| < 12 && |Sexagesimal(b1, b2, b3)| < 12
    requires |offsets| >= 1
    requires forall k :: 0 <= k < |offsets| ==> '\n' !in offsets[k].dLambda && '\n' !in offsets[k].dBeta
    ensures ReadMap(path, Concat(MapLines(Sexagesimal(a1, a2, a3), Sexagesimal(b1, b2, b3), offsets)))
            == Loaded(|offsets|, path)
  {
    var lines := MapLines(Sexagesimal(a1, a2, a3), Sexagesimal(b1, b2, b3), offsets);
    HeaderFullLine(a1, a2, a3, b1, b2, b3);
    forall k | 0 <= k < |lines| ensures FullLine(lines[k]) {
      if k > 0 {
        OffsetFullLine(offsets[k - 1]);
      }
    }
    SplitLinesConcat(lines);
    HeaderWords(a1, a2, a3, b1, b2, b3);
  }
}

=== FILE: names.dfy ===
/** Names the AOR translator gives its output: the sanitised observation
    title, the `.sct` scan-template path that does not clash with an existing
    file, and the `_map.txt` map-list name that goes with it. The filesystem
    is the set of paths that already exist. */
module FileNames {
  import opened Results
  import opened PyText
  import opened Decimal
  import opened Seqs

  /** The characters `replaceBadChar` turns into '_'. The source leaves '|',
      '<' and '>' alone (their replacements are commented out). */
  predicate IsBadChar(c: char) {
    c == '/' || c == '\\' || c == ':' || c == '*' || c == ' '
  }

  /** `replaceBadChar`: five `str.replace` calls in a row, each bad character
      to '_'. Same length; each bad character becomes '_', every other
      character is kept; no bad character is left. */
  function ReplaceBadChar(s: string): (r: string)
    ensures |r| == |s|
    ensures forall i :: 0 <= i < |s| ==> r[i] == (if IsBadChar(s[i]) then '_' else s[i])
    ensures forall i :: 0 <= i < |r| ==> !IsBadChar(r[i])
  {
    var s1 := Replace(s, '/', '_');
    var s2 := Replace(s1, '\\', '_');
    var s3 := Replace(s2, ':', '_');
    var s4 := Replace(s3, '*', '_');
    Replace(s4, ' ', '_')
  }

  lemma ReplaceBadCharIdempotent(s: string)
    ensures ReplaceBadChar(ReplaceBadChar(s)) == ReplaceBadChar(s)
  {
  }

  /** `TARGET_NAME`: the AOR target name with blanks turned into '_'. */
  function TargetName(name: string): (t: string)
    ensures |t| == |name|
    ensures forall i :: 0 <= i < |name| ==> t[i] == (if name[i] == ' ' then '_' else name[i])
    ensures ' ' !in t
  {
    Replace(name, ' ', '_')
  }

  /** The common stem of OBSID, the `.sct` name and `MAPLISTPATH`: the target
      name without '@', an underscore, and the sanitised title. */
  function Stem(name: string, title: string): (stem: string)
    ensures stem != []
  {
    Remove(TargetName(name), '@') + "_" + ReplaceBadChar(title)
  }

  /** `os.path.join(dir, name)` on POSIX. */
  function Join(dir: string, name: string): string {
    if name != [] && name[0] == '/' then name
    else if dir == [] || dir[|dir| - 1] == '/' then dir + name
    else dir + "/" + name
  }

  /** An absolute name replaces the directory; otherwise the joined path is
      the directory, a '/' unless it is empty or already ends in one, and the
      name. */
  lemma JoinLayout(dir: string, name: string)
    ensures EndsWith(Join(dir, name), name)
    ensures name != [] && name[0] == '/' ==> Join(dir, name) == name
    ensures name == [] || name[0] != '/' ==>
      var p := Join(dir, name);
      |dir| <= |p| && p[..|dir|] == dir
      && |p| == |dir| + |name| + (if dir == [] || dir[|dir| - 1] == '/' then 0 else 1)
      && (|p| > |dir| + |name| ==> p[|dir|] == '/')
  {
  }

  /** Joining onto the same directory tells apart names that start alike. */
  lemma JoinInjective(dir: string, x: string, y: string)
    requires x != [] && y != [] && x[0] == y[0]
    ensures Join(dir, x) == Join(dir, y) ==> x == y
  {
    if Join(dir, x) == Join(dir, y) && x[0] != '/' {
      var p := if dir == [] || dir[|dir| - 1] == '/' then dir else dir + "/";
      assert Join(dir, x) == p + x && Join(dir, y) == p + y;
      assert x == (p + x)[|p|..];
    }
  }

  /** The part the `i`-th candidate adds to the stem: nothing for the first,
      `'_%03d' % i` after that. */
  function Suffix(i: nat): (s: string)
    ensures i == 0 <==> s == []
  {
    if i == 0 then "" else "_" + Pad3(i)
  }

  function SctName(stem: string, i: nat): string {
    stem + Suffix(i) + ".sct"
  }

  function MapListName(stem: string, i: nat): string {
    stem + Suffix(i) + "_map.txt"
  }

  lemma SuffixInjective(i: nat, j: nat)
    ensures Suffix(i) == Suffix(j) ==> i == j
  {
    if Suffix(i) == Suffix(j) && i != 0 && j != 0 {
      assert Pad3(i) == Suffix(i)[1..];
      Pad3Injective(i, j);
    }
  }

  lemma SctNameInjective(stem: string, i: nat, j: nat)
    ensures SctName(stem, i) == SctName(stem, j) ==> i == j
  {
    if SctName(stem, i) == SctName(stem, j) {
      var a := SctName(stem, i);
      assert Suffix(i) == a[|stem|..|a| - 4];
      assert Suffix(j) == a[|stem|..|a| - 4];
      SuffixInjective(i, j);
    }
  }

  /** The `i`-th path the loop tries. */
  function Candidate(outdir: string, stem: string, i: nat): string {
    Join(outdir, SctName(stem, i))
  }

  /** The paths tried before the `i`-th. */
  function Tried(outdir: string, stem: string, i: nat): set<string> {
    set j | 0 <= j < i :: Candidate(outdir, stem, j)
  }

  /** The `i`-th candidate path is none of the earlier ones, so trying it
      grows the set of tried paths by one. */
  lemma CandidateFresh(outdir: string, stem: string, i: nat)
    requires stem != []
    ensures Candidate(outdir, stem, i) !in Tried(outdir, stem, i)
    ensures Tried(outdir, stem, i + 1) == Tried(outdir, stem, i) + {Candidate(outdir, stem, i)}
  {
    forall j | 0 <= j < i
      ensures Candidate(outdir, stem, j) != Candidate(outdir, stem, i)
    {
      assert SctName(stem, j)[0] == stem[0] == SctName(stem, i)[0];
      JoinInjective(outdir, SctName(stem, j), SctName(stem, i));
      SctNameInjective(stem, j, i);
    }
  }

  /** The name-choosing loop of the AOR translator: try the plain `.sct` name,
      then `_001`, `_002`, ... until one does not exist. The chosen path is
      free, every earlier candidate was taken, so the index is the smallest
      free one, and it never exceeds the number of existing paths. */
  method ChooseSctPath(outdir: string, stem: string, existing: set<string>)
    returns (i: nat, sctPath: string)
    requires stem != []
    ensures sctPath == Candidate(outdir, stem, i)
    ensures sctPath !in existing
    ensures forall j :: 0 <= j < i ==> Candidate(outdir, stem, j) in existing
    ensures i <= |existing|
  {
    i := 0;
    sctPath := Candidate(outdir, stem, 0);
    while sctPath in existing
      invariant sctPath == Candidate(outdir, stem, i)
      invariant Tried(outdir, stem, i) <= existing
      invariant |Tried(outdir, stem, i)| == i
      decreases |existing - Tried(outdir, stem, i)|
    {
      CandidateFresh(outdir, stem, i);
      assert existing - Tried(outdir, stem, i + 1) < existing - Tried(outdir, stem, i);
      i := i + 1;
      sctPath := Candidate(outdir, stem, i);
    }
    assert forall j :: 0 <= j < i ==> Candidate(outdir, stem, j) in Tried(outdir, stem, i);
  }

  /** The output names of one translated AOR: the free `.sct` path and the
      map-list name with the same suffix, ending in `_map.txt`. */
  method ChooseOutputNames(outdir: string, name: string, title: string, existing: set<string>)
    returns (i: nat, sctPath: string, mapListPath: string)
    ensures sctPath == Candidate(outdir, Stem(name, title), i)
    ensures sctPath !in existing
    ensures forall j :: 0 <= j < i ==> Candidate(outdir, Stem(name, title), j) in existing
    ensures mapListPath == MapListName(Stem(name, title), i)
    ensures EndsWith(mapListPath, "_map.txt")
    ensures Join(outdir, mapListPath[..|mapListPath| - 8] + ".sct") == sctPath
  {
    var stem := Stem(name, title);
    i, sctPath := ChooseSctPath(outdir, stem, existing);
    mapListPath := MapListName(stem, i);
    assert mapListPath[..|mapListPath| - 8] == stem + Suffix(i);
  }

  /** The path the map file is actually written to: `MAPLISTPATH` with every
      '@' removed, inside the output directory. */
  function WrittenMapFile(outdir: string, mapListPath: string): (p: string)
    ensures EndsWith(p, Remove(mapListPath, '@'))
  {
    Join(outdir, Remove(mapListPath, '@'))
  }

  lemma ReplaceBadCharKeepsAt(title: string)
    ensures '@' in ReplaceBadChar(title) <==> '@' in title
  {
    var b := ReplaceBadChar(title);
    if '@' in title {
      var k :| 0 <= k < |title| && title[k] == '@';
      assert b[k] == '@';
    }
    if '@' in b {
      var k :| 0 <= k < |b| && b[k] == '@';
      assert title[k] == '@';
    }
  }

  /** Removing '@' from a name whose first character is not '@' keeps that
      first character. */
  lemma RemoveKeepsHead(s: string, c: char)
    requires s != [] && s[0] != c
    ensures Remove(s, c) != [] && Remove(s, c)[0] == s[0]
  {
    assert s == [s[0]] + s[1..];
    RemoveConcat([s[0]], s[1..], c);
  }

  /** The only '@' a map-list name can hold comes from the title, and it
      never starts with one. */
  lemma MapListNameAt(name: string, title: string, i: nat)
    ensures var m := MapListName(Stem(name, title), i);
            m != [] && m[0] != '@' && ('@' in m <==> '@' in ReplaceBadChar(title))
  {
    assert '@' !in Suffix(i) by {
      if i != 0 {
        InConcat('@', "_", Pad3(i));
      }
    }
    NameParts(Remove(TargetName(name), '@'), ReplaceBadChar(title), Suffix(i), "_map.txt");
  }

  /** A name built as `t _ b x tail`, with '@' only possible in `b`. */
  lemma NameParts(t: string, b: string, x: string, tail: string)
    requires '@' !in t && '@' !in x && '@' !in tail
    ensures var m := t + "_" + b + x + tail;
            m != [] && m[0] != '@' && ('@' in m <==> '@' in b)
  {
    InConcat('@', t + "_" + b + x, tail);
    InConcat('@', t + "_" + b, x);
    InConcat('@', t + "_", b);
    InConcat('@', t, "_");
    assert (t + "_" + b + x + tail)[0] == (t + "_")[0];
    HeadOfConcat(t, "_");
  }

  /** The map file lands where the recorded `MAPLISTPATH` points exactly when
      the observation title has no '@' (the target-name part of the stem has
      its '@' removed already, the title part does not). */
  lemma WrittenMapFileMatchesIff(outdir: string, name: string, title: string, i: nat)
    ensures WrittenMapFile(outdir, MapListName(Stem(name, title), i))
              == Join(outdir, MapListName(Stem(name, title), i))
            <==> '@' !in title
  {
    var m := MapListName(Stem(name, title), i);
    MapListNameAt(name, title, i);
    ReplaceBadCharKeepsAt(title);
    RemoveUnchangedIff(m, '@');
    RemoveKeepsHead(m, '@');
    JoinInjective(outdir, Remove(m, '@'), m);
  }
}

=== FILE: pylines.dfy ===
/** How Python sees a text file's content: iterating over an open file
    yields its lines, each ending in '\n' except perhaps the last, and
    `str.split()` with no argument yields the whitespace-separated words. */
module PyLines {
  import opened PyText
  import opened Seqs

  /** Length of the first line of `s`, its '\n' included. */
  function LineEnd(s: string): (n: nat)
    requires s != []
    ensures 0 < n <= |s|
    ensures '\n' !in s[..n - 1]
    ensures n < |s| ==> s[n - 1] == '\n'
    decreases |s|
  {
    if s[0] == '\n' || |s| == 1 then 1
    else
      var m := LineEnd(s[1..]);
      assert s[..m] == [s[0]] + s[1..][..m - 1];
      1 + m
  }

  /** A line as file iteration yields it, apart from a last one that lacks its '\n'. */
  predicate FullLine(l: string) {
    l != [] && l[|l| - 1] == '\n' && '\n' !in l[..|l| - 1]
  }

  /** `list(open(f))` for a file whose text content is `s`. */
  function SplitLines(s: string): (lines: seq<string>)
    ensures lines == [] <==> s == []
    ensures forall k :: 0 <= k < |lines| ==> lines[k] != [] && '\n' !in lines[k][..|lines[k]| - 1]
    ensures forall k :: 0 <= k < |lines| - 1 ==> FullLine(lines[k])
    decreases |s|
  {
    if s == [] then []
    else
      var n := LineEnd(s);
      [s[..n]] + SplitLines(s[n..])
  }

  /** The text a writer produces by writing `lines` one after another. */
  function Concat(lines: seq<string>): string
    decreases |lines|
  {
    if lines == [] then [] else lines[0] + Concat(lines[1..])
  }

  lemma ConcatCons(l: string, lines: seq<string>)
    ensures Concat([l] + lines) == l + Concat(lines)
  {
    ConsTail(l, lines);
  }

  lemma LineEndOfFullLine(l: string, rest: string)
    requires FullLine(l)
    ensures LineEnd(l + rest) == |l|
  {
    var s := l + rest;
    assert s[|l| - 1] == '\n';
    assert s[..|l| - 1] == l[..|l| - 1];
  }

  /** Reading back text written as full lines yields those very lines. */
  lemma {:induction false} SplitLinesConcat(lines: seq<string>)
    requires forall k :: 0 <= k < |lines| ==> FullLine(lines[k])
    ensures SplitLines(Concat(lines)) == lines
    decreases |lines|
  {
    if lines != [] {
      var rest := Concat(lines[1..]);
      assert SplitLines(lines[0] + rest) == [lines[0]] + SplitLines(rest) by {
        LineEndOfFullLine(lines[0], rest);
        ConcatParts(lines[0], rest);
      }
      SplitLinesConcat(lines[1..]);
      TakeDrop(lines, 1);
    }
  }

  /** Splitting into lines loses nothing of the text. */
  lemma {:induction false} ConcatSplitLines(s: string)
    ensures Concat(SplitLines(s)) == s
    decreases |s|
  {
    if s != [] {
      var n := LineEnd(s);
      assert Concat(SplitLines(s)) == s[..n] + Concat(SplitLines(s[n..])) by {
        assert SplitLines(s) == [s[..n]] + SplitLines(s[n..]);
        ConcatCons(s[..n], SplitLines(s[n..]));
      }
      ConcatSplitLines(s[n..]);
      TakeDrop(s, n);
    }
  }

  /** Length of the leading run of non-whitespace characters of `t`. */
  function WordEnd(t: string): (n: nat)
    ensures n <= |t|
    ensures forall i :: 0 <= i < n ==> !IsSpace(t[i])
    ensures n == |t| || IsSpace(t[n])
    decreases |t|
  {
    if t == [] || IsSpace(t[0]) then 0 else 1 + WordEnd(t[1..])
  }

  /** `s.split()`: the maximal runs of non-whitespace, in order. */
  function Words(s: string): (ws: seq<string>)
    ensures forall k :: 0 <= k < |ws| ==> ws[k] != [] && NoSpace(ws[k])
    decreases |s|
  {
    var t := LStrip(s);
    if t == [] then []
    else
      var n := WordEnd(t);
      var w := t[..n];
      assert w != [] && NoSpace(w);
      var rest := Words(t[n..]);
      FirstAndRest(w, rest);
      [w] + rest
  }

  lemma FirstAndRest(w: string, rest: seq<string>)
    requires w != [] && NoSpace(w)
    requires forall k :: 0 <= k < |rest| ==> rest[k] != [] && NoSpace(rest[k])
    ensures forall k :: 0 <= k < |[w] + rest| ==> ([w] + rest)[k] != [] && NoSpace(([w] + rest)[k])
  {
  }

  lemma WordsOfSpace(s: string)
    requires AllSpace(s)
    ensures Words(s) == []
  {
    assert s == s + [];
    LStripSpaces(s, []);
  }

  /** A word preceded by whitespace and followed by whitespace (or the end)
      is the next word `split()` returns. */
  lemma WordsCons(ws: string, w: string, rest: string)
    requires AllSpace(ws) && w != [] && NoSpace(w)
    requires rest == [] || IsSpace(rest[0])
    ensures Words(ws + w + rest) == [w] + Words(rest)
  {
    var t := w + rest;
    Assoc(ws, w, rest);
    LStripSpaces(ws, t);
    ConcatParts(w, rest);
    assert WordEnd(t) == |w| by {
      assert forall i :: 0 <= i < |w| ==> t[i] == w[i];
      assert |w| < |t| ==> t[|w|] == rest[0];
      WordEndAt(t, |w|);
    }
  }

  /** `WordEnd` stops at the first whitespace character. */
  lemma WordEndAt(t: string, n: nat)
    requires n <= |t|
    requires forall i :: 0 <= i < n ==> !IsSpace(t[i])
    requires n == |t| || IsSpace(t[n])
    ensures WordEnd(t) == n
  {
  }
}

=== FILE: pytext.dfy ===
/** The Python `str` operations the scan-template and file-name code relies
    on, stated over `seq<char>`: whitespace, `strip`, `rstrip`, `replace`,
    `split` on one separator, `ljust`/`rjust` and ASCII `upper`. */
module PyText {
  import opened Results
  import opened Seqs

  /** `str.isspace()` for one character: the set `strip()` and `split()` drop. */
  predicate IsSpace(c: char) {
    var n := c as int;
    n == 0x20 || 0x09 <= n <= 0x0D || 0x1C <= n <= 0x1F || n == 0x85 || n == 0xA0
    || n == 0x1680 || 0x2000 <= n <= 0x200A || n == 0x2028 || n == 0x2029
    || n == 0x202F || n == 0x205F || n == 0x3000
  }

  predicate AllSpace(s: string) {
    forall i :: 0 <= i < |s| ==> IsSpace(s[i])
  }

  predicate NoSpace(s: string) {
    forall i :: 0 <= i < |s| ==> !IsSpace(s[i])
  }

  /** Neither end of `s` is whitespace, so `strip()` leaves it unchanged. */
  predicate Trimmed(s: string) {
    s == [] || (!IsSpace(s[0]) && !IsSpace(s[|s| - 1]))
  }

  predicate EndsWith(s: string, suffix: string) {
    |suffix| <= |s| && s[|s| - |suffix|..] == suffix
  }

  function Spaces(n: nat): (r: string)
    ensures |r| == n
    ensures forall i :: 0 <= i < n ==> r[i] == ' '
  {
    seq(n, _ => ' ')
  }

  /** The first position at or after `i` that is not whitespace. */
  function SkipSpace(s: string, i: nat): (j: nat)
    requires i <= |s|
    ensures i <= j <= |s|
    ensures j == |s| || !IsSpace(s[j])
    ensures forall k :: i <= k < j ==> IsSpace(s[k])
    decreases |s| - i
  {
    if i < |s| && IsSpace(s[i]) then SkipSpace(s, i + 1) else i
  }

  /** The end of `s[lo..j]` once its trailing whitespace is dropped. */
  function BackSpace(s: string, lo: nat, j: nat): (i: nat)
    requires lo <= j <= |s|
    ensures lo <= i <= j
    ensures i == lo || !IsSpace(s[i - 1])
    ensures forall k :: i <= k < j ==> IsSpace(s[k])
    decreases j
  {
    if j > lo && IsSpace(s[j - 1]) then BackSpace(s, lo, j - 1) else j
  }

  /** `s.lstrip()` */
  function LStrip(s: string): (r: string)
    ensures |r| <= |s| && r == s[|s| - |r|..]
    ensures r == [] || !IsSpace(r[0])
    ensures forall i :: 0 <= i < |s| - |r| ==> IsSpace(s[i])
    decreases |s|
  {
    if s != [] && IsSpace(s[0]) then LStrip(s[1..]) else s
  }

  /** Where `strip()` starts: the first non-whitespace position. */
  function StripStart(s: string): nat
    ensures StripStart(s) <= |s|
  {
    SkipSpace(s, 0)
  }

  /** `s.strip()`: the slice of `s` from its first non-whitespace character;
      everything cut off is whitespace, and neither end of the result is. */
  function Strip(s: string): (r: string)
    ensures Trimmed(r)
    ensures StripStart(s) + |r| <= |s| && r == s[StripStart(s)..StripStart(s) + |r|]
    ensures AllSpace(s[..StripStart(s)]) && AllSpace(s[StripStart(s) + |r|..])
  {
    var lo := SkipSpace(s, 0);
    var hi := BackSpace(s, lo, |s|);
    assert AllSpace(s[..lo]) && AllSpace(s[hi..]);
    s[lo..hi]
  }

  /** `SkipSpace` stops at the first non-whitespace position. */
  lemma SkipSpaceAt(s: string, i: nat, j: nat)
    requires i <= j <= |s|
    requires forall k :: i <= k < j ==> IsSpace(s[k])
    requires j == |s| || !IsSpace(s[j])
    ensures SkipSpace(s, i) == j
  {
  }

  /** `BackSpace` stops just after the last non-whitespace position. */
  lemma BackSpaceAt(s: string, lo: nat, i: nat, j: nat)
    requires lo <= i <= j <= |s|
    requires forall k :: i <= k < j ==> IsSpace(s[k])
    requires i == lo || !IsSpace(s[i - 1])
    ensures BackSpace(s, lo, j) == i
  {
  }

  lemma {:induction false} LStripSpaces(ws: string, t: string)
    requires AllSpace(ws)
    requires t == [] || !IsSpace(t[0])
    ensures LStrip(ws + t) == t
    decreases |ws|
  {
    if ws == [] {
      assert ws + t == t;
    } else {
      assert (ws + t)[1..] == ws[1..] + t;
      LStripSpaces(ws[1..], t);
    }
  }

  /** `strip()` removes exactly the padding around a trimmed string. */
  lemma StripPadded(ws1: string, s: string, ws2: string)
    requires AllSpace(ws1) && AllSpace(ws2) && Trimmed(s)
    ensures Strip(ws1 + s + ws2) == s
  {
    var x := ws1 + s + ws2;
    var lo := |ws1|;
    var hi := |ws1| + |s|;
    assert forall k :: 0 <= k < lo ==> x[k] == ws1[k];
    assert forall k :: hi <= k < |x| ==> x[k] == ws2[k - hi];
    if s == [] {
      SkipSpaceAt(x, 0, |x|);
    } else {
      assert x[lo] == s[0] && x[hi - 1] == s[|s| - 1];
      SkipSpaceAt(x, 0, lo);
      BackSpaceAt(x, lo, hi, |x|);
      assert x[lo..hi] == s;
    }
  }

  lemma StripTrimmed(s: string)
    requires Trimmed(s)
    ensures Strip(s) == s
  {
    var none: string := [];
    StripPadded(none, s, none);
    assert none + s + none == s;
  }

  lemma StripRightPadded(s: string, ws: string)
    requires Trimmed(s) && AllSpace(ws)
    ensures Strip(s + ws) == s
  {
    var none: string := [];
    StripPadded(none, s, ws);
    assert none + s + ws == s + ws;
  }

  /** `s.rstrip(c)` for one character `c`. */
  function RStripChar(s: string, c: char): (r: string)
    ensures |r| <= |s| && r == s[..|r|]
    ensures r == [] || r[|r| - 1] != c
    ensures forall i :: |r| <= i < |s| ==> s[i] == c
    decreases |s|
  {
    if s != [] && s[|s| - 1] == c then RStripChar(s[..|s| - 1], c) else s
  }

  /** `rstrip(c)` takes away only copies of `c`: the count of any other character is kept. */
  lemma RStripCharKeepsOthers(s: string, c: char, x: char)
    requires x != c
    ensures multiset(RStripChar(s, c))[x] == multiset(s)[x]
  {
    var r := RStripChar(s, c);
    assert s == r + s[|r|..];
    assert x !in s[|r|..];
    assert multiset(s) == multiset(r) + multiset(s[|r|..]);
  }

  /** `s.replace(a, b)` for single characters. */
  function Replace(s: string, a: char, b: char): (r: string)
    ensures |r| == |s|
    ensures forall i :: 0 <= i < |s| ==> r[i] == (if s[i] == a then b else s[i])
    decreases |s|
  {
    if s == [] then [] else [if s[0] == a then b else s[0]] + Replace(s[1..], a, b)
  }

  /** `s.replace(c, '')`: every copy of `c` removed, all else kept in order. */
  function Remove(s: string, c: char): (r: string)
    ensures c !in r
    ensures multiset(r) == multiset(s)[c := 0]
    decreases |s|
  {
    if s == [] then []
    else
      assert s == [s[0]] + s[1..];
      (if s[0] == c then [] else [s[0]]) + Remove(s[1..], c)
  }

  lemma RemoveCons(x: char, s: string, c: char)
    ensures Remove([x] + s, c) == (if x == c then [] else [x]) + Remove(s, c)
  {
    ConsTail(x, s);
  }

  lemma {:induction false} RemoveConcat(a: string, b: string, c: char)
    ensures Remove(a + b, c) == Remove(a, c) + Remove(b, c)
    decreases |a|
  {
    if a == [] {
      assert a + b == b;
    } else {
      var h := if a[0] == c then [] else [a[0]];
      assert a == [a[0]] + a[1..];
      Assoc([a[0]], a[1..], b);
      RemoveCons(a[0], a[1..] + b, c);
      RemoveCons(a[0], a[1..], c);
      RemoveConcat(a[1..], b, c);
      Assoc(h, Remove(a[1..], c), Remove(b, c));
    }
  }

  /** Removing a character changes a string exactly when the string holds it. */
  lemma {:induction false} RemoveUnchangedIff(s: string, c: char)
    ensures Remove(s, c) == s <==> c !in s
    decreases |s|
  {
    if s != [] {
      assert s == [s[0]] + s[1..];
      RemoveUnchangedIff(s[1..], c);
    }
  }

  /** First position of `c` in `s`. */
  function IndexOf(s: string, c: char): (i: nat)
    requires c in s
    ensures i < |s| && s[i] == c && c !in s[..i]
    decreases |s|
  {
    if s[0] == c then 0
    else
      var j := IndexOf(s[1..], c);
      assert s[..1 + j] == [s[0]] + s[1..][..j];
      1 + j
  }

  lemma IndexOfAfterPrefix(p: string, c: char, t: string)
    requires c !in p
    ensures IndexOf(p + [c] + t, c) == |p|
  {
    var s := p + [c] + t;
    assert s[|p|] == c;
    assert s[..|p|] == p;
  }

  /** The separator at `i`, the first one, accounts for one copy in the count. */
  lemma CountAtFirst(s: string, i: nat, sep: char)
    requires i < |s| && s[i] == sep && sep !in s[..i]
    ensures multiset(s)[sep] == 1 + multiset(s[i + 1..])[sep]
  {
    assert s == s[..i] + [sep] + s[i + 1..];
    assert multiset(s) == multiset(s[..i]) + multiset([sep]) + multiset(s[i + 1..]);
  }

  /** `s.split(sep)` for a one-character separator: one more part than there
      are separators, and no part holds the separator. */
  function SplitOn(s: string, sep: char): (parts: seq<string>)
    ensures |parts| == multiset(s)[sep] + 1
    ensures forall k :: 0 <= k < |parts| ==> sep !in parts[k]
    decreases |s|
  {
    if sep !in s then [s]
    else
      var i := IndexOf(s, sep);
      CountAtFirst(s, i, sep);
      [s[..i]] + SplitOn(s[i + 1..], sep)
  }

  /** `sep.join(parts)` */
  function JoinOn(parts: seq<string>, sep: char): string
    requires |parts| > 0
    decreases |parts|
  {
    if |parts| == 1 then parts[0] else parts[0] + [sep] + JoinOn(parts[1..], sep)
  }

  lemma JoinOnCons(p: string, parts: seq<string>, sep: char)
    requires |parts| > 0
    ensures JoinOn([p] + parts, sep) == p + [sep] + JoinOn(parts, sep)
  {
    ConsTail(p, parts);
  }

  /** The first part ends at the first separator. */
  lemma SplitOnFirst(p: string, sep: char, rest: string)
    requires sep !in p
    ensures SplitOn(p + [sep] + rest, sep) == [p] + SplitOn(rest, sep)
  {
    var s := p + [sep] + rest;
    IndexOfAfterPrefix(p, sep, rest);
    assert s[..|p|] == p;
    assert s[|p| + 1..] == rest;
  }

  /** Splitting undoes joining when no part holds the separator. */
  lemma {:induction false} SplitOnJoin(parts: seq<string>, sep: char)
    requires |parts| > 0
    requires forall k :: 0 <= k < |parts| ==> sep !in parts[k]
    ensures SplitOn(JoinOn(parts, sep), sep) == parts
    decreases |parts|
  {
    if |parts| > 1 {
      var rest := JoinOn(parts[1..], sep);
      JoinOnCons(parts[0], parts[1..], sep);
      HeadTail(parts);
      SplitOnFirst(parts[0], sep, rest);
      SplitOnJoin(parts[1..], sep);
    }
  }

  /** Joining undoes splitting. */
  lemma {:induction false} JoinOnSplit(s: string, sep: char)
    ensures JoinOn(SplitOn(s, sep), sep) == s
    decreases |s|
  {
    if sep in s {
      var i := IndexOf(s, sep);
      var tail := SplitOn(s[i + 1..], sep);
      assert SplitOn(s, sep) == [s[..i]] + tail;
      JoinOnCons(s[..i], tail, sep);
      JoinOnSplit(s[i + 1..], sep);
      SplitAround(s, i);
    }
  }

  /** `s.ljust(width)` */
  function LJust(s: string, width: int): (r: string)
    ensures |r| == Max(width, |s|)
    ensures r[..|s|] == s
    ensures forall i :: |s| <= i < |r| ==> r[i] == ' '
  {
    if width <= |s| then s else s + Spaces(width - |s|)
  }

  /** `s.rjust(width)` */
  function RJust(s: string, width: int): (r: string)
    ensures |r| == Max(width, |s|)
    ensures r[|r| - |s|..] == s
    ensures forall i :: 0 <= i < |r| - |s| ==> r[i] == ' '
  {
    if width <= |s| then s else Spaces(width - |s|) + s
  }

  /** `upper()` on one character, for the ASCII letters. */
  function UpperChar(c: char): char {
    if 'a' <= c <= 'z' then (c as int - 32) as char else c
  }

  /** `s.upper()` (ASCII letters only). */
  function Upper(s: string): (r: string)
    ensures |r| == |s|
    ensures forall i :: 0 <= i < |s| ==> r[i] == UpperChar(s[i])
  {
    seq(|s|, i requires 0 <= i < |s| => UpperChar(s[i]))
  }

  /** Upper-casing moves only letters, so it keeps the separators and the
      whitespace that the scan-template reader looks at. */
  lemma UpperKeepsLayout(s: string)
    ensures '#' in Upper(s) <==> '#' in s
    ensures '\n' in Upper(s) <==> '\n' in s
    ensures Trimmed(Upper(s)) <==> Trimmed(s)
  {
    var u := Upper(s);
    if '#' in u {
      var i :| 0 <= i < |u| && u[i] == '#';
      assert s[i] == '#';
    }
    if '#' in s {
      var i :| 0 <= i < |s| && s[i] == '#';
      assert u[i] == '#';
    }
    if '\n' in u {
      var i :| 0 <= i < |u| && u[i] == '\n';
      assert s[i] == '\n';
    }
    if '\n' in s {
      var i :| 0 <= i < |s| && s[i] == '\n';
      assert u[i] == '\n';
    }
  }
}

=== FILE: results.dfy ===
/** Failure-carrying values used across the model: `Option` for the places
    where the source returns `None`, `Result` for the places where it raises. */
module Results {

  datatype Option<+T> = None | Some(value: T)

  datatype Result<+T> = Ok(value: T) | Err(message: string)

  /** All the values, when every element holds one. */
  function AllSome<T>(os: seq<Option<T>>): (r: Option<seq<T>>)
    ensures r.None? <==> exists k :: 0 <= k < |os| && os[k].None?
    ensures r.Some? ==> |r.value| == |os|
    ensures r.Some? ==> forall k :: 0 <= k < |os| ==> os[k] == Some(r.value[k])
  {
    if forall k :: 0 <= k < |os| ==> os[k].Some? then
      Some(seq(|os|, k requires 0 <= k < |os| => os[k].value))
    else None
  }

  function Max(a: int, b: int): int { if a < b then b else a }

  function Min(a: int, b: int): int { if a < b then a else b }
}

=== FILE: scantemplate.dfy ===
/** The scan-template (`.sct`) text format: one `value#KEY` entry per line,
    the value left-justified in a field of at least 25 characters. Two
    writers produce it (the AOR translator and the template export) and one
    reader turns a file back into a key-to-value dictionary. */
module ScanTemplate {
  import opened Results
  import opened PyText
  import opened PyLines
  import opened Seqs

  datatype Entry = Entry(key: string, value: string)

  /** A key or value that survives a write and a read unchanged: no '#',
      no '\n', and no whitespace at either end. */
  predicate Clean(s: string) {
    '#' !in s && '\n' !in s && Trimmed(s)
  }

  predicate AllClean(es: seq<Entry>) {
    forall k :: 0 <= k < |es| ==> Clean(es[k].key) && Clean(es[k].value)
  }

  /** One line of the AOR translator's `.sct` file: the value left-justified
      to `max(25, len(value) + 2)`, '#', the key, '\n'. */
  function FaorLine(e: Entry): (line: string)
    ensures var f := |line| - |e.key| - 2;
            && f == Max(25, |e.value| + 2)
            && line[..|e.value|] == e.value
            && (forall i :: |e.value| <= i < f ==> line[i] == ' ')
            && line[f] == '#'
            && line[f + 1..|line| - 1] == e.key
            && line[|line| - 1] == '\n'
  {
    var field := LJust(e.value, Max(25, |e.value| + 2));
    var line := field + "#" + e.key + "\n";
    assert line[|field| + 1..|line| - 1] == e.key;
    line
  }

  /** One line of the template export: the value left-justified to 25
      (`{0:25s}`), '#', the key upper-cased, '\n'. */
  function SctLine(e: Entry): (line: string)
    ensures var f := |line| - |e.key| - 2;
            && f == Max(25, |e.value|)
            && line[..|e.value|] == e.value
            && (forall i :: |e.value| <= i < f ==> line[i] == ' ')
            && line[f] == '#'
            && line[f + 1..|line| - 1] == Upper(e.key)
            && line[|line| - 1] == '\n'
  {
    var field := LJust(e.value, 25);
    var line := field + "#" + Upper(e.key) + "\n";
    assert line[|field| + 1..|line| - 1] == Upper(e.key);
    line
  }

  /** The line holds exactly one '#', so `split('#')` gives two parts. */
  predicate OneSeparator(line: string) {
    multiset(line)['#'] == 1
  }

  /** The reader's work on one line: drop the trailing newline, split on '#'
      into exactly two parts (anything else makes the whole read fail),
      strip both. The entry exists exactly when the line has one '#', and
      its key and value carry no surrounding whitespace and no '#'. */
  function ParseLine(line: string): (r: Option<Entry>)
    ensures r.Some? <==> OneSeparator(line)
    ensures r.Some? ==> Trimmed(r.value.key) && Trimmed(r.value.value)
    ensures r.Some? ==> '#' !in r.value.key && '#' !in r.value.value
    ensures r.Some? ==> exists v, k :: RStripChar(line, '\n') == v + "#" + k && '#' !in v && '#' !in k
                                       && r.value == Entry(Strip(k), Strip(v))
  {
    var body := RStripChar(line, '\n');
    RStripCharKeepsOthers(line, '\n', '#');
    var parts := SplitOn(body, '#');
    if |parts| == 2 then
      StripInside(parts[1]);
      StripInside(parts[0]);
      TwoParts(body, '#');
      assert body == parts[0] + "#" + parts[1];
      Some(Entry(Strip(parts[1]), Strip(parts[0])))
    else None
  }

  /** A text with one separator is the part before it, the separator and the
      part after it. */
  lemma TwoParts(s: string, sep: char)
    requires |SplitOn(s, sep)| == 2
    ensures s == SplitOn(s, sep)[0] + [sep] + SplitOn(s, sep)[1]
  {
    var parts := SplitOn(s, sep);
    JoinOnSplit(s, sep);
    HeadTail(parts);
    JoinOnCons(parts[0], parts[1..], sep);
  }

  /** `strip()` keeps only characters of its input. */
  lemma StripInside(s: string)
    ensures forall c :: c in Strip(s) ==> c in s
  {
    var r := Strip(s);
    var lo := StripStart(s);
    forall c | c in r ensures c in s {
      var k :| 0 <= k < |r| && r[k] == c;
      assert s[lo + k] == c;
    }
  }

  /** The lines of a file, all parsed; absent when any line fails (the
      source stops at the first such line, with the same outcome). */
  function ParseAll(lines: seq<string>): (r: Option<seq<Entry>>)
    ensures r.None? <==> exists k :: 0 <= k < |lines| && ParseLine(lines[k]).None?
    ensures r.Some? ==> |r.value| == |lines|
    ensures r.Some? ==> forall k :: 0 <= k < |lines| ==> ParseLine(lines[k]) == Some(r.value[k])
  {
    var parsed := ParsedLines(lines);
    var r := AllSome(parsed);
    assert r.None? ==> exists k :: 0 <= k < |lines| && ParseLine(lines[k]).None? by {
      if r.None? {
        var k :| 0 <= k < |parsed| && parsed[k].None?;
        assert ParseLine(lines[k]).None?;
      }
    }
    r
  }

  function ParsedLines(lines: seq<string>): (ps: seq<Option<Entry>>)
    ensures |ps| == |lines|
    ensures forall k :: 0 <= k < |lines| ==> ps[k] == ParseLine(lines[k])
  {
    seq(|lines|, k requires 0 <= k < |lines| => ParseLine(lines[k]))
  }

  /** No entry after position `k` has the key of entry `k`. */
  predicate LastWithKey(es: seq<Entry>, k: int)
    requires 0 <= k < |es|
  {
    forall j :: k < j < |es| ==> es[j].key != es[k].key
  }

  /** Storing the entries in a dictionary one after the other, as the reader
      does: a later entry with the same key overwrites an earlier one. */
  function ToMap(es: seq<Entry>): map<string, string>
    decreases |es|
  {
    if es == [] then map[]
    else ToMap(es[..|es| - 1])[es[|es| - 1].key := es[|es| - 1].value]
  }

  /** The dictionary holds exactly the keys of the entries. */
  lemma {:induction false} ToMapKeys(es: seq<Entry>)
    ensures forall key :: key in ToMap(es) <==> exists k :: 0 <= k < |es| && es[k].key == key
    decreases |es|
  {
    if es != [] {
      var init := es[..|es| - 1];
      ToMapKeys(init);
      forall key | key in ToMap(es)
        ensures exists k :: 0 <= k < |es| && es[k].key == key
      {
        if key != es[|es| - 1].key {
          assert key in ToMap(init);
          var k :| 0 <= k < |init| && init[k].key == key;
          assert es[k] == init[k];
        }
      }
      forall k | 0 <= k < |es|
        ensures es[k].key in ToMap(es)
      {
        if k < |init| {
          assert init[k] == es[k];
        }
      }
    }
  }

  /** Each key holds the value of its last entry. */
  lemma {:induction false} ToMapLastWins(es: seq<Entry>, k: int)
    requires 0 <= k < |es| && LastWithKey(es, k)
    ensures es[k].key in ToMap(es) && ToMap(es)[es[k].key] == es[k].value
    decreases |es|
  {
    var init := es[..|es| - 1];
    if k < |init| {
      assert init[k] == es[k];
      assert LastWithKey(init, k);
      ToMapLastWins(init, k);
    }
  }

  /** `readSct` on a file with text `content`: the dictionary of its lines,
      or nothing when a line does not split into exactly two parts on '#'.
      Every stored key and value is whitespace-stripped. */
  function ReadSct(content: string): (r: Option<map<string, string>>)
    ensures r.None? <==> exists k :: 0 <= k < |SplitLines(content)| && !OneSeparator(SplitLines(content)[k])
    ensures r.Some? ==> forall key :: key in r.value ==> Trimmed(key) && Trimmed(r.value[key])
    ensures r.Some? ==> forall key :: key in r.value <==>
              exists k :: 0 <= k < |SplitLines(content)| && ParseLine(SplitLines(content)[k]).Some?
                          && ParseLine(SplitLines(content)[k]).value.key == key
  {
    var lines := SplitLines(content);
    var parsed := ParseAll(lines);
    ParseAllFailsIff(lines);
    if parsed.None? then
      assert exists k :: 0 <= k < |SplitLines(content)| && !OneSeparator(SplitLines(content)[k]);
      None
    else
      EntriesTrimmed(lines, parsed.value);
      EntryKeys(lines, parsed.value);
      Some(ToMap(parsed.value))
  }

  /** A key read from a template holds the value of the last line that
      carries that key: a later duplicate overwrites an earlier one. */
  lemma ReadSctLastWins(content: string, k: int, key: string, value: string)
    requires ReadSct(content).Some?
    requires 0 <= k < |SplitLines(content)|
    requires ParseLine(SplitLines(content)[k]) == Some(Entry(key, value))
    requires forall j :: k < j < |SplitLines(content)| ==>
               ParseLine(SplitLines(content)[j]).None? || ParseLine(SplitLines(content)[j]).value.key != key
    ensures key in ReadSct(content).value && ReadSct(content).value[key] == value
  {
    var lines := SplitLines(content);
    ParseAllFailsIff(lines);
    var es := ParseAll(lines).value;
    assert ReadSct(content) == Some(ToMap(es));
    assert es[k] == Entry(key, value);
    assert LastWithKey(es, k) by {
      forall j | k < j < |es| ensures es[j].key != es[k].key {
        assert ParseLine(lines[j]) == Some(es[j]);
      }
    }
    ToMapLastWins(es, k);
  }

  /** The keys stored are exactly the keys of the lines read. */
  lemma EntryKeys(lines: seq<string>, es: seq<Entry>)
    requires ParseAll(lines) == Some(es)
    ensures forall key :: key in ToMap(es) <==>
              exists k :: 0 <= k < |lines| && ParseLine(lines[k]).Some? && ParseLine(lines[k]).value.key == key
  {
    ToMapKeys(es);
    forall key | key in ToMap(es)
      ensures exists k :: 0 <= k < |lines| && ParseLine(lines[k]).Some? && ParseLine(lines[k]).value.key == key
    {
      var k :| 0 <= k < |es| && es[k].key == key;
      assert ParseLine(lines[k]) == Some(es[k]);
    }
    forall key | exists k :: 0 <= k < |lines| && ParseLine(lines[k]).Some? && ParseLine(lines[k]).value.key == key
      ensures key in ToMap(es)
    {
      var k :| 0 <= k < |lines| && ParseLine(lines[k]).Some? && ParseLine(lines[k]).value.key == key;
      assert es[k].key == key;
    }
  }

  lemma EntriesTrimmed(lines: seq<string>, es: seq<Entry>)
    requires ParseAll(lines) == Some(es)
    ensures forall key :: key in ToMap(es) ==> Trimmed(key) && Trimmed(ToMap(es)[key])
  {
    var m := ToMap(es);
    forall key | key in m
      ensures Trimmed(key) && Trimmed(m[key])
    {
      ToMapKeys(es);
      LastOccurrence(es, key);
      var k :| 0 <= k < |es| && es[k].key == key && LastWithKey(es, k);
      ToMapLastWins(es, k);
      assert ParseLine(lines[k]) == Some(es[k]);
    }
  }

  lemma ParseAllFailsIff(lines: seq<string>)
    ensures ParseAll(lines).None? <==> exists k :: 0 <= k < |lines| && !OneSeparator(lines[k])
  {
    if ParseAll(lines).None? {
      var k :| 0 <= k < |lines| && ParseLine(lines[k]).None?;
      assert !OneSeparator(lines[k]);
    }
    if exists k :: 0 <= k < |lines| && !OneSeparator(lines[k]) {
      var k :| 0 <= k < |lines| && !OneSeparator(lines[k]);
      assert ParseLine(lines[k]).None?;
    }
  }

  /** A key that occurs has a last occurrence. */
  lemma {:induction false} LastOccurrence(es: seq<Entry>, key: string)
    requires exists k :: 0 <= k < |es| && es[k].key == key
    ensures exists k :: 0 <= k < |es| && es[k].key == key && LastWithKey(es, k)
    decreases |es|
  {
    var n := |es| - 1;
    if es[n].key != key {
      var init := es[..n];
      var k0 :| 0 <= k0 < |es| && es[k0].key == key;
      assert init[k0] == es[k0];
      LastOccurrence(init, key);
      var k :| 0 <= k < |init| && init[k].key == key && LastWithKey(init, k);
      assert es[k] == init[k];
      assert LastWithKey(es, k);
    }
  }

  /** A line the AOR translator writes reads back as the entry it was written from. */
  lemma FaorLineRoundTrip(e: Entry)
    requires Clean(e.key) && Clean(e.value)
    ensures ParseLine(FaorLine(e)) == Some(e)
  {
    var pad := Spaces(Max(25, |e.value| + 2) - |e.value|);
    FaorLineShape(e);
    LineRoundTrip(e.value, pad, e.key);
  }

  lemma FaorLineShape(e: Entry)
    ensures FaorLine(e) == e.value + Spaces(Max(25, |e.value| + 2) - |e.value|) + "#" + e.key + "\n"
  {
  }

  lemma SctLineShape(e: Entry)
    ensures SctLine(e) == e.value + Spaces(Max(25, |e.value|) - |e.value|) + "#" + Upper(e.key) + "\n"
  {
    if |e.value| >= 25 {
      assert Spaces(0) == [];
      assert e.value + Spaces(0) == e.value;
    }
  }

  /** A line the template export writes reads back with the key upper-cased. */
  lemma SctLineRoundTrip(e: Entry)
    requires Clean(e.key) && Clean(e.value)
    ensures ParseLine(SctLine(e)) == Some(Entry(Upper(e.key), e.value))
  {
    var pad := Spaces(Max(25, |e.value|) - |e.value|);
    SctLineShape(e);
    UpperKeepsLayout(e.key);
    LineRoundTrip(e.value, pad, Upper(e.key));
  }

  lemma LineRoundTrip(v: string, pad: string, k: string)
    requires Clean(v) && Clean(k)
    requires forall i :: 0 <= i < |pad| ==> pad[i] == ' '
    ensures ParseLine(v + pad + "#" + k + "\n") == Some(Entry(k, v))
  {
    var field := v + pad;
    var line := field + "#" + k + "\n";
    DropNewline(field, k);
    assert RStripChar(line, '\n') == field + "#" + k;
    assert '#' !in field;
    SplitField(field, k);
    var parts := SplitOn(RStripChar(line, '\n'), '#');
    assert parts == [field, k];
    StripBoth(v, pad, k);
    assert ParseLine(line) == Some(Entry(Strip(parts[1]), Strip(parts[0])));
  }

  lemma DropNewline(field: string, k: string)
    requires '\n' !in k
    ensures RStripChar(field + "#" + k + "\n", '\n') == field + "#" + k
  {
    var body := field + "#" + k;
    assert body[|body| - 1] != '\n' by {
      if k != [] {
        assert body[|body| - 1] == k[|k| - 1];
      }
    }
    assert (body + "\n")[..|body|] == body;
  }

  lemma SplitField(field: string, k: string)
    requires '#' !in field && '#' !in k
    ensures SplitOn(field + "#" + k, '#') == [field, k]
  {
    assert JoinOn([field, k], '#') == field + "#" + k;
    SplitOnJoin([field, k], '#');
  }

  lemma StripBoth(v: string, pad: string, k: string)
    requires Trimmed(v) && Trimmed(k)
    requires forall i :: 0 <= i < |pad| ==> pad[i] == ' '
    ensures Strip(k) == k && Strip(v + pad) == v
  {
    StripTrimmed(k);
    assert AllSpace(pad);
    StripRightPadded(v, pad);
  }

  /** The lines of the AOR translator's `.sct` file, one per entry. */
  function FaorLines(es: seq<Entry>): (lines: seq<string>)
    ensures |lines| == |es|
    ensures forall k :: 0 <= k < |es| ==> lines[k] == FaorLine(es[k])
  {
    seq(|es|, k requires 0 <= k < |es| => FaorLine(es[k]))
  }

  /** The lines of an exported template, one per entry. */
  function SctLines(es: seq<Entry>): (lines: seq<string>)
    ensures |lines| == |es|
    ensures forall k :: 0 <= k < |es| ==> lines[k] == SctLine(es[k])
  {
    seq(|es|, k requires 0 <= k < |es| => SctLine(es[k]))
  }

  function UpperKeys(es: seq<Entry>): (us: seq<Entry>)
    ensures |us| == |es|
    ensures forall k :: 0 <= k < |es| ==> us[k] == Entry(Upper(es[k].key), es[k].value)
  {
    seq(|es|, k requires 0 <= k < |es| => Entry(Upper(es[k].key), es[k].value))
  }

  /** Parsing lines that each parse to the matching entry gives those entries. */
  lemma ParseAllOf(lines: seq<string>, es: seq<Entry>)
    requires |lines| == |es|
    requires forall k :: 0 <= k < |es| ==> ParseLine(lines[k]) == Some(es[k])
    ensures ParseAll(lines) == Some(es)
  {
    var r := ParseAll(lines);
    assert r.Some?;
    assert r.value == es;
  }

  /** Reading back a `.sct` file the AOR translator wrote gives the
      dictionary of the written entries (a repeated key keeps its last value). */
  lemma FaorFileRoundTrip(es: seq<Entry>)
    requires AllClean(es)
    ensures ReadSct(Concat(FaorLines(es))) == Some(ToMap(es))
  {
    var lines := FaorLines(es);
    forall k | 0 <= k < |es| ensures FullLine(lines[k]) && ParseLine(lines[k]) == Some(es[k]) {
      FaorLineRoundTrip(es[k]);
      FullFaorLine(es[k]);
    }
    SplitLinesConcat(lines);
    ParseAllOf(lines, es);
  }

  /** Reading back an exported template gives the dictionary of the written
      entries under their upper-cased keys. */
  lemma SctFileRoundTrip(es: seq<Entry>)
    requires AllClean(es)
    ensures ReadSct(Concat(SctLines(es))) == Some(ToMap(UpperKeys(es)))
  {
    var lines := SctLines(es);
    var us := UpperKeys(es);
    forall k | 0 <= k < |es| ensures FullLine(lines[k]) && ParseLine(lines[k]) == Some(us[k]) {
      SctLineRoundTrip(es[k]);
      FullSctLine(es[k]);
    }
    SplitLinesConcat(lines);
    ParseAllOf(lines, us);
  }

  lemma FullFaorLine(e: Entry)
    requires Clean(e.key) && Clean(e.value)
    ensures FullLine(FaorLine(e))
  {
    FaorLineShape(e);
    FullLineOf(e.value, Spaces(Max(25, |e.value| + 2) - |e.value|), e.key);
  }

  lemma FullSctLine(e: Entry)
    requires Clean(e.key) && Clean(e.value)
    ensures FullLine(SctLine(e))
  {
    SctLineShape(e);
    UpperKeepsLayout(e.key);
    FullLineOf(e.value, Spaces(Max(25, |e.value|) - |e.value|), Upper(e.key));
  }

  /** A `value pad # key` line is one full line when none of its parts holds a newline. */
  lemma FullLineOf(v: string, pad: string, k: string)
    requires '\n' !in v && '\n' !in k && forall i :: 0 <= i < |pad| ==> pad[i] == ' '
    ensures FullLine(v + pad + "#" + k + "\n")
  {
    var body := v + pad + "#" + k;
    assert '\n' !in pad;
    assert '\n' !in body;
    ConcatParts(body, "\n");
  }

  /** The export's file name: `.sct` is appended unless the chosen name
      already ends in it (a name shorter than four characters never does). */
  function WithSctExtension(filename: string): (r: string)
    ensures EndsWith(r, ".sct")
    ensures r == filename <==> EndsWith(filename, ".sct")
    ensures r != filename ==> r == filename + ".sct"
  {
    var last4 := filename[|filename| - Min(4, |filename|)..];
    if last4 != ".sct" then filename + ".sct" else filename
  }

  lemma WithSctExtensionIdempotent(filename: string)
    ensures WithSctExtension(WithSctExtension(filename)) == WithSctExtension(filename)
  {
  }
}

=== FILE: seqs.dfy ===
/** Shape facts about sequences, stated once for any element type so that
    proofs about text can use them without unfolding the text functions. */
module Seqs {

  lemma TakeDrop<T>(s: seq<T>, n: nat)
    requires n <= |s|
    ensures s[..n] + s[n..] == s
  {
  }

  /** The two halves of a concatenation are recovered by slicing. */
  lemma ConcatParts<T>(a: seq<T>, b: seq<T>)
    ensures (a + b)[..|a|] == a && (a + b)[|a|..] == b
  {
  }

  lemma Assoc<T>(a: seq<T>, b: seq<T>, c: seq<T>)
    ensures a + b + c == a + (b + c)
  {
  }

  lemma ConsTail<T>(x: T, s: seq<T>)
    ensures ([x] + s)[1..] == s
  {
  }

  lemma InConcat<T>(x: T, a: seq<T>, b: seq<T>)
    ensures x in a + b <==> x in a || x in b
  {
    if x in a + b {
      var k :| 0 <= k < |a + b| && (a + b)[k] == x;
      if k >= |a| {
        assert b[k - |a|] == x;
      }
    }
    if x in b {
      var k :| 0 <= k < |b| && b[k] == x;
      assert (a + b)[|a| + k] == x;
    }
  }

  lemma HeadOfConcat<T>(a: seq<T>, b: seq<T>)
    requires a + b != []
    ensures (a + b)[0] == if a != [] then a[0] else b[0]
  {
  }

  lemma HeadTail<T>(s: seq<T>)
    requires s != []
    ensures [s[0]] + s[1..] == s
  {
  }

  /** A sequence is the part before position `i`, the element there, and the rest. */
  lemma SplitAround<T>(s: seq<T>, i: nat)
    requires i < |s|
    ensures s[..i] + [s[i]] + s[i + 1..] == s
  {
  }

  lemma ConsTwo<T>(x: seq<T>, y: seq<T>, w: seq<T>, a: T, b: T)
    requires x == [a] + y && y == [b] + w
    ensures x == [a, b] + w
  {
  }

  lemma ConsOnTwo<T>(x: seq<T>, y: seq<T>, w: seq<T>, a: T, b: T, c: T)
    requires x == [a] + y && y == [b, c] + w
    ensures x == [a, b, c] + w
  {
  }

  lemma SixFields<T>(x: seq<T>, a1: T, a2: T, a3: T, b1: T, b2: T, b3: T)
    requires x == [a1, a2, a3] + [b1, b2, b3]
    ensures x == [a1, a2, a3, b1, b2, b3]
  {
  }
}
